=== FILE: README.md ===
# Artisan storefront backend: a Dafny model

This project models the backend of a small artisan-goods storefront. The backend is a set of Convex queries and mutations over six tables:

- users
- role records (`userRoles`)
- products
- categories
- cart entries
- orders

The database is an immutable value (`Schema.Db`). Every query is a pure function of the database and the caller's identity. Every mutation is a pure function returning `Result<Step<T>>`: the new database plus the mutation's output, or an error. The one exception is `Products.InitSampleData`, which cannot throw and so returns a plain `Step<string>`. An error carries no state, because a Convex mutation that throws is rolled back as a whole. `Schema.Commit` gives the state left behind in either case.

The caller's identity is an input, `Option<Id>`, where `None` means an anonymous request.

Document ids come from one counter that never goes back (`Tables.clock`). `Db` is the subset of states in which every id in use is below that counter. Two things follow:

- The next value of the counter is always a fresh id.
- A larger id always names a later document.

So an index scan in creation order is an ascending scan over ids (`Store.Matching`), and `.order("desc")` is the descending one (`Store.Newest`). `.unique()` is `Store.Unique`. It returns no document, the one document, or the platform's error when several documents match.

Modules follow the source files:

- `Store`: the platform layer.
- `Schema`: `convex/schema.ts`.
- `Roles`: the role lookup shared by `convex/products.ts`, `convex/auth.ts` and `convex/adminSetup.ts`.
- `Auth`, `AdminSetup`, `Products`, `Cart`.
- `Checkout` and `Orders`: `convex/orders.ts`.
- `Invariants`: the application-level invariants, proved to hold across every mutation.

Order placement is the centre of the model. `Checkout.Fold` is the left-to-right pass as `convex/orders.ts` runs it. For each line it does four things in turn:

1. validate the line against the live product;
2. capture the product's price and name;
3. add the line's amount to the total;
4. take the stock at once.

`Checkout.Drain` and `Checkout.AllServed` describe the same pass independently, line by line over prefixes of the request. Lemmas prove that the two agree. So a product that appears twice in one order is validated the second time against the stock the first line left.

The model follows the code as written, including where it is lax:

- A cart `add` of an in-stock product accepts any quantity. This includes zero, a negative quantity, or more than the product holds.
- Order lines are not required to be positive. A negative line puts stock back (`Orders.NegativeLineRestocks`).
- Product quantities are not kept non-negative by `create` or `update`. Every other mutation keeps them so, order placement included (`Invariants.StockNonNegativeKeptBarCatalogueWrites`).
- `update` stores the caller's `inStock` flag even when it disagrees with the quantity (`Invariants.UpdateCanSplitFlagFromCount`).
- `list` treats an empty category string as no category, because the source tests the string for truthiness.
- The validation loop in `create` patches each product as it goes. A later failure still undoes every earlier patch, because the platform rolls the whole mutation back.

## Model

| member | source | states |
|---|---|---|
| Store.Matching | convex/orders.ts:62-65 | an index scan yields exactly the matching documents of the table, oldest first |
| Store.Newest | convex/orders.ts:81-85 | a descending index scan yields exactly the matching documents, newest first |
| Store.Unique | convex/auth.ts:33-36 | `.unique()` gives no document exactly when none matches, the only match when one does, and an error exactly when two distinct documents match |
| Store.Oldest | convex/products.ts:41 | `.take(n)` returns at most n matching documents; these are the oldest ones, and every match when fewer than n exist |
| Roles.RoleRecord | convex/auth.ts:33-36 | the `by_user` lookup finds the user's role record, reports its absence, or fails on duplicates |
| Roles.IsUserAdmin | convex/products.ts:6-19 | false for an anonymous caller; with one role record per user, true exactly when the caller's record says admin |
| Roles.Upsert | convex/auth.ts:64-79 | afterwards the user holds the role and every record of the user says it; an existing record is patched in place, otherwise exactly one fresh record is added; other users' records and the other tables are unchanged; at most one role per user is preserved |
| Auth.LoggedInUser | convex/auth.ts:11-23 | the caller's user document, or nothing when there is no identity or the document is missing |
| Invariants.LoggedInUserUnchanged | convex/auth.ts:11-23 | no storefront mutation (no call of `Invariants.Call`) writes the users table, so the logged-in user's document reads the same after any such call |
| Auth.IsAdmin | convex/auth.ts:25-40 | false rather than an error for an anonymous caller; otherwise true exactly when the caller's role record says admin |
| Auth.SetUserRole | convex/auth.ts:42-81 | an anonymous caller is refused as unauthenticated; a caller without an admin record is refused as unauthorised; otherwise the target's record is patched in place or exactly one fresh record is added; other users' records are kept and none appears for anyone else; only role records change, and uniqueness is kept |
| AdminSetup.MakeUserAdmin | convex/adminSetup.ts:6-27 | with no caller check, the target ends up admin: an existing record is patched in place with no new key, a user without one gets exactly one fresh admin record; other users' records keep their values, none is added for anyone else, and no other table changes |
| AdminSetup.MakeUserAdminIdempotent | convex/adminSetup.ts:11-26 | promoting a user twice leaves the same role table as promoting them once |
| Products.List | convex/products.ts:21-51 | a non-empty category filters by category; failing that, a set featured flag keeps only featured products; otherwise nothing is filtered; at most `limit` results (50 when absent or 0), oldest first, every result a stored product, and a short page holds every selected product |
| Products.Get | convex/products.ts:53-64 | the stored product, or nothing for an id that does not resolve |
| Products.GetAgreesWithList | convex/products.ts:21-64 | every product the unfiltered listing returns resolves through `get`, and a page larger than the id space lists exactly the products that resolve |
| Products.RequireAdmin | convex/products.ts:108-110 | the catalogue mutations proceed exactly for a caller holding an admin record, and are otherwise refused as unauthorised |
| Products.Create | convex/products.ts:92-117 | admins only; a fresh product holding every supplied field, the optional ones as given, with `inStock` equal to `quantity > 0`; only the product table changes |
| Products.Update | convex/products.ts:119-144 | admins only, and only for an existing product; every required field and the caller's `inStock` are stored, whatever the quantity; an omitted optional field keeps its value; no other table changes, so orders keep their captured prices |
| Products.DeleteProduct | convex/products.ts:146-158 | admins only; removes exactly that product, leaving cart entries and orders that name it untouched |
| Products.InitSampleData | convex/products.ts:170-194 | writes nothing when any product exists; otherwise adds one category and exactly one product, the sample vase: "Rustic Clay Vase" at 85, of clay and natural glaze, featured, with 5 units, in stock, in the Pottery category |
| Cart.EntryFor | convex/cart.ts:49-54 | the `by_user_and_product` lookup finds the pair's entry or its absence, and fails only on duplicates |
| Cart.Join | convex/cart.ts:16-29 | pairs each entry with its product, oldest first, and drops exactly the entries whose product is gone |
| Cart.List | convex/cart.ts:5-31 | nothing for an anonymous caller; otherwise exactly the caller's entries whose product still exists, each with that product, oldest first |
| Cart.Add | convex/cart.ts:33-68 | refused when anonymous or when the product is missing or not in stock, with no comparison against the stock count; merges into the pair's entry by summing quantities, otherwise adds one entry; keeps one entry per pair; only the cart changes |
| Cart.Put | convex/cart.ts:56-66 | the write after the lookup: the pair's entry gains the quantity in place, or one new entry is stored under a fresh id; nothing else changes and the pairs stay unique |
| Cart.AddTwiceMerges | convex/cart.ts:49-66 | two adds of the same product leave exactly one entry for the pair, holding the sum of both quantities |
| Cart.Remove | convex/cart.ts:70-85 | refused unless the entry exists and is the caller's; otherwise deletes exactly that entry |
| Cart.UpdateQuantity | convex/cart.ts:87-109 | ownership-checked; a quantity of 0 or less deletes the entry; any other quantity becomes the entry's quantity exactly; other entries are unchanged |
| Cart.WithoutUser | convex/cart.ts:119-126 | removes every entry of the user and keeps every other entry as it was |
| Cart.Clear | convex/cart.ts:111-128 | refused when anonymous; otherwise deletes every entry of the caller and no one else's; every entry left is the one that was there, unchanged |
| Cart.ClearThenListIsEmpty | convex/cart.ts:111-128 | after a clear the caller's cart lists as empty |
| Checkout.FoldSucceedsIff | convex/orders.ts:29-33 | the pass succeeds exactly when each line is served by the product as the earlier lines left it: present, in stock, with enough units |
| Checkout.FoldMeetsReference | convex/orders.ts:29-50 | a successful pass ends on the drained table; it captures one line per request line, read from the table as the earlier lines left it; its total grows by exactly those lines' amounts |
| Checkout.FoldFailsAtFirstUnserved | convex/orders.ts:30-33 | a failing pass fails on the first line that cannot be served, naming that product, or "unknown" when it is gone or its name is empty |
| Checkout.FoldKeepsNonNegative | convex/orders.ts:31-49 | a successful pass leaves every count non-negative when it started so, because a line is served only when the product holds at least its quantity |
| Checkout.DrainStock | convex/orders.ts:45-49 | each product's count drops by everything requested of it; the flag of a touched product agrees with its count; untouched products and all other fields stay the same |
| Checkout.CapturedFromCatalogue | convex/orders.ts:38-43 | each captured line carries the requested product and quantity, and the price and name the product had when the order began |
| Checkout.PlaceItems | convex/orders.ts:26-50 | success exactly when every line is served in turn; the lines follow the request with catalogue prices and names; the total equals their sum; the final stock is the drained table |
| Orders.Create | convex/orders.ts:5-73 | refused when anonymous; fails exactly when some line cannot be served; otherwise stores a fresh pending, unpaid order owned by the caller, with the request's lines and total; the caller's whole cart is deleted, and every entry left is one that was there, unchanged |
| Orders.CreateDrainsStock | convex/orders.ts:45-49 | a placed order leaves the product table exactly as the lines, taken one after another, drained it |
| Orders.CreateNeverOversells | convex/orders.ts:29-49 | placing an order, whether it succeeds or is rolled back, never takes a product's count below zero |
| Orders.CreateKeepsTotals | convex/orders.ts:52-59 | after an order is placed, every stored order's total still equals the sum of its lines |
| Orders.List | convex/orders.ts:75-87 | nothing for an anonymous caller; otherwise every order of the caller and no other, newest first |
| Orders.Get | convex/orders.ts:89-100 | the order exactly when it exists and belongs to the caller; a missing order and another user's order look the same |
| Orders.GetAgreesWithList | convex/orders.ts:75-100 | an order can be fetched exactly when it is in the caller's list, and it is fetched as listed |
| Orders.ShortStockRollsBack | convex/orders.ts:29-33 | a line asking for more than the product holds makes the order fail, and the committed state is the original |
| Orders.UnnamedProductReportsUnknown | convex/orders.ts:31-33 | an order naming an out-of-stock product whose name is empty fails with the name "unknown" |
| Orders.DuplicateLineSeesEarlierDeduction | convex/orders.ts:29-50 | two lines of 2 against a stock of 3 fail on the second line, and the stock stays 3 |
| Orders.CheckoutOfThreeFromFive | convex/orders.ts:20-72 | ordering 3 of 5 succeeds, leaves 2 in stock and still in stock, totals three times the price, and empties the caller's cart |
| Orders.NegativeLineRestocks | convex/orders.ts:29-49 | a negative line quantity is accepted, adds that many units to stock and makes the total minus that many times the price, so negative for a positive price |
| Invariants.CallKeepsConsistency | convex/cart.ts:33-128 | every mutation keeps one role per user, one cart entry per (user, product) pair, and every order total equal to the sum of its lines: the cart mutations cited here together with those of convex/auth.ts, convex/adminSetup.ts, convex/products.ts and convex/orders.ts |
| Invariants.ReplayKeepsConsistency | convex/cart.ts:33-128 | any sequence of mutations, by any callers, keeps those invariants: the cart mutations cited here together with those of convex/auth.ts, convex/adminSetup.ts, convex/products.ts and convex/orders.ts |
| Invariants.StockFlagsKeptBarUpdate | convex/orders.ts:46-49 | every mutation except a product update keeps each product's stock flag in line with its count |
| Invariants.StockNonNegativeKeptBarCatalogueWrites | convex/orders.ts:31-49 | every call except a product create or update keeps every product's count non-negative |
| Invariants.UpdateCanSplitFlagFromCount | convex/products.ts:141-142 | an admin update can store "in stock" for a product with no units |

## Left out

- Full-text `search` (convex/products.ts:66-90): ranking is done by the platform's search index, which is not visible.
- Image URLs and uploads (`ctx.storage.getUrl`, `generateUploadUrl`, convex/products.ts:160-168): these are calls to an opaque blob store. Queries return the stored `imageId`, not a URL.
- Authentication provider wiring (convex/auth.ts:7-9): the caller's identity is an input. The provider's own `signIn` and `store` mutations, which create and update user documents, are not modelled.
- `convex/categories.ts`: it is a bare insert plus a listing. Categories appear only as the record `initSampleData` inserts.
- The React components and styling: these are presentation only. The cart total and item count computed there are not modelled.
- Numbers: prices and quantities are JavaScript doubles in the source. Here they are unbounded integers, with prices in the smallest currency unit, so totals are exact and there is no rounding or NaN.
- Argument validators: ids are plain numbers shared by all tables. An id of another table reads as a missing document instead of failing validation.
- User documents: `Schema.User` keeps only the optional name and email. The users table comes from the authentication library's `authTables` (convex/schema.ts:81), whose definition is not part of this model. Its other fields are written by the provider and read by no modelled operation, so `loggedInUser` returns only those two.
- Error messages are `Store.Error` values, not strings. The order error keeps the product name, or "unknown".
- Concurrency: each mutation is one atomic step, as the platform serialises mutations.
- The product patches made inside the order loop are not visible as intermediate states. Only the final table and the rollback on failure are modelled.
- Products.List: a negative `limit` is modelled as an empty page. The platform's behaviour for a negative `.take` argument is not modelled.
- Store.Unique: the `NotUnique` error is reachable only in states that break the one-record-per-key invariants, which no mutation produces (`Invariants.ReplayKeepsConsistency`).

=== FILE: admin_setup.dfy ===
/**
 The operator utility that promotes a user to administrator. It takes no
 caller identity at all: whoever can invoke it can promote anyone.
 */
module AdminSetup {
  import opened Store
  import opened Schema
  import Roles

  /** Makes `target` an administrator: an existing role record is patched
      to admin in place, otherwise exactly one admin record is inserted. */
  function MakeUserAdmin(db: Db, target: Id): (r: Result<Step<Option<Id>>>)
    ensures RolesUnique(db) ==> r.Ok? && RolesUnique(r.value.db)
    ensures r.Ok? ==> HasRole(r.value.db, target, Admin)
    ensures r.Ok? ==> forall k :: k in r.value.db.userRoles && r.value.db.userRoles[k].userId == target
                                  ==> r.value.db.userRoles[k].role == Admin
    ensures r.Ok? && (exists k :: k in db.userRoles && db.userRoles[k].userId == target) ==>
              r.value.out.None? && r.value.db.userRoles.Keys == db.userRoles.Keys
    ensures r.Ok? && (forall k :: k in db.userRoles ==> db.userRoles[k].userId != target) ==>
              && r.value.out.Some? && r.value.out.value !in db.userRoles
              && r.value.db.userRoles.Keys == db.userRoles.Keys + {r.value.out.value}
    // Nothing else changes: other users' records are kept, none is added
    // for anyone else, and no other table is touched.
    ensures r.Ok? ==> forall k :: k in db.userRoles && db.userRoles[k].userId != target
                                  ==> k in r.value.db.userRoles && r.value.db.userRoles[k] == db.userRoles[k]
    ensures r.Ok? ==> forall k :: k in r.value.db.userRoles && r.value.db.userRoles[k].userId != target
                                  ==> k in db.userRoles
    ensures r.Ok? ==> r.value.db.(userRoles := db.userRoles, clock := db.clock) == db
  {
    Roles.Upsert(db, target, Admin)
  }

  /** Promoting the same user twice leaves the same role table as promoting
      them once. */
  lemma {:induction false} MakeUserAdminIdempotent(db: Db, target: Id)
    requires RolesUnique(db)
    ensures MakeUserAdmin(db, target).Ok?
    ensures var once := MakeUserAdmin(db, target).value.db;
            && MakeUserAdmin(once, target).Ok?
            && MakeUserAdmin(once, target).value.db.userRoles == once.userRoles
  {
    var once := MakeUserAdmin(db, target).value.db;
    var twice := MakeUserAdmin(once, target).value.db;
    assert HasRole(once, target, Admin);
    assert twice.userRoles.Keys == once.userRoles.Keys;
    forall k | k in once.userRoles
      ensures twice.userRoles[k] == once.userRoles[k]
    {
      if once.userRoles[k].userId == target {
        assert twice.userRoles[k] == UserRole(target, Admin);
      }
    }
  }
}

=== FILE: auth.dfy ===
/**
 The authentication-facing queries and the role-setting mutation. The
 caller's identity, which the authentication provider resolves, is an
 input: `None` for an anonymous request.
 */
module Auth {
  import opened Store
  import opened Schema
  import Roles

  /** The caller's user document, or nothing for an anonymous caller or a
      user id whose document is gone. */
  function LoggedInUser(db: Db, caller: Option<Id>): (r: Option<User>)
    ensures r.Some? <==> caller.Some? && caller.value in db.users
    ensures r.Some? ==> r.value == db.users[caller.value]
  {
    match caller
    case None => None
    case Some(user) => if user in db.users then Some(db.users[user]) else None
  }

  /** The `isAdmin` query: false rather than an error for an anonymous
      caller, and otherwise whether the caller's role record says admin. */
  function IsAdmin(db: Db, caller: Option<Id>): (r: Result<bool>)
    ensures caller.None? ==> r == Ok(false)
    ensures r == Ok(true) ==> caller.Some? && HasRole(db, caller.value, Admin)
    ensures caller.Some? && RolesUnique(db) ==> r == Ok(HasRole(db, caller.value, Admin))
  {
    Roles.IsUserAdmin(db, caller)
  }

  /** Sets `target`'s role on behalf of an administrator. An anonymous
      caller is refused as unauthenticated; a caller without an admin role
      record is refused as unauthorised; otherwise the target's role record
      is upserted and nothing else changes. */
  function SetUserRole(db: Db, caller: Option<Id>, target: Id, role: Role): (r: Result<Step<Option<Id>>>)
    ensures caller.None? ==> r == Err(NotLoggedIn)
    ensures caller.Some? && RolesUnique(db) ==> (r.Ok? <==> HasRole(db, caller.value, Admin))
    ensures caller.Some? && RolesUnique(db) && !HasRole(db, caller.value, Admin) ==> r == Err(NotAdmin)
    ensures r.Ok? ==> caller.Some? && HasRole(db, caller.value, Admin)
    ensures r.Ok? ==> HasRole(r.value.db, target, role)
    ensures r.Ok? && RolesUnique(db) ==> RolesUnique(r.value.db)
    ensures r.Ok? ==> r.value.db.(userRoles := db.userRoles, clock := db.clock) == db
    ensures r.Ok? ==> forall k :: k in r.value.db.userRoles && r.value.db.userRoles[k].userId == target
                                  ==> r.value.db.userRoles[k].role == role
    // Only the target's role changes: other users' records are kept as they
    // were, and no record appears for anyone else.
    ensures r.Ok? ==> forall k :: k in db.userRoles && db.userRoles[k].userId != target
                                  ==> k in r.value.db.userRoles && r.value.db.userRoles[k] == db.userRoles[k]
    ensures r.Ok? ==> forall k :: k in r.value.db.userRoles && r.value.db.userRoles[k].userId != target
                                  ==> k in db.userRoles
    // The target's record is patched in place, or exactly one is added.
    ensures r.Ok? ==> (r.value.out.None? <==> exists k :: k in db.userRoles && db.userRoles[k].userId == target)
    ensures r.Ok? && r.value.out.None? ==> r.value.db.userRoles.Keys == db.userRoles.Keys
    ensures r.Ok? && r.value.out.Some? ==>
              && r.value.out.value !in db.userRoles
              && r.value.db.userRoles.Keys == db.userRoles.Keys + {r.value.out.value}
  {
    match caller
    case None => Err(NotLoggedIn)
    case Some(me) =>
      var mine :- Roles.RoleRecord(db, me);
      if mine.None? || db.userRoles[mine.value].role != Admin then Err(NotAdmin)
      else Roles.Upsert(db, target, role)
  }
}

=== FILE: cart.dfy ===
/**
 The shopping cart: per-user (product, quantity) entries with a listing
 joined against the catalogue, a merging add, an ownership-checked remove
 and quantity change, and a clear of the caller's whole cart.
 */
module Cart {
  import opened Store
  import opened Schema

  /** A cart entry as `list` returns it: joined with its product. */
  datatype CartLine = CartLine(entry: CartEntry, product: Product)

  /** The `by_user_and_product` index lookup with `.unique()` semantics. */
  function EntryFor(db: Db, user: Id, product: Id): (r: Result<Option<Id>>)
    ensures r == Ok(None) <==>
              forall k :: k in db.cart ==> !(db.cart[k].userId == user && db.cart[k].productId == product)
    ensures r.Ok? && r.value.Some? ==>
              && r.value.value in db.cart
              && db.cart[r.value.value].userId == user && db.cart[r.value.value].productId == product
              && forall k :: k in db.cart && db.cart[k].userId == user && db.cart[k].productId == product
                             ==> k == r.value.value
    ensures r.Err? ==> exists a, b :: && a in db.cart && b in db.cart && a != b
                                      && db.cart[a].userId == user && db.cart[a].productId == product
                                      && db.cart[b].userId == user && db.cart[b].productId == product
    ensures CartUnique(db) ==> r.Ok?
  {
    Unique(db.cart, (e: CartEntry) => e.userId == user && e.productId == product, db.clock)
  }

  /** Joins cart entries with their products, oldest first, silently
      dropping an entry whose product no longer exists. */
  function Join(cart: map<Id, CartEntry>, products: map<Id, Product>, ids: seq<Id>): (r: seq<Doc<CartLine>>)
    requires forall i :: 0 <= i < |ids| ==> ids[i] in cart
    requires Increasing(ids)
    ensures forall i :: 0 <= i < |r| ==>
              && r[i].id in cart && r[i].value.entry == cart[r[i].id]
              && r[i].value.entry.productId in products && r[i].value.product == products[r[i].value.entry.productId]
    ensures forall k :: k in Ids(r) <==> k in ids && cart[k].productId in products
    ensures Increasing(Ids(r))
    decreases |ids|
  {
    if ids == [] then []
    else
      var k := ids[0];
      var rest := Join(cart, products, ids[1..]);
      SplitIds(ids);
      var e := cart[k];
      if e.productId in products then
        var line := Doc(k, CartLine(e, products[e.productId]));
        PrependLine(line, rest);
        [line] + rest
      else rest
  }

  /** Putting a line in front of lines with larger ids keeps them ordered. */
  lemma PrependLine(line: Doc<CartLine>, rest: seq<Doc<CartLine>>)
    requires Increasing(Ids(rest))
    requires forall j :: j in Ids(rest) ==> line.id < j
    ensures forall j :: j in Ids([line] + rest) <==> j == line.id || j in Ids(rest)
    ensures Increasing(Ids([line] + rest))
  {
    var ids := Ids([line] + rest);
    assert ids == [line.id] + Ids(rest);
    assert forall i :: 0 <= i < |Ids(rest)| ==> Ids(rest)[i] in Ids(rest);
  }

  /** The `list` query: nothing for an anonymous caller; otherwise each of
      the caller's entries whose product still exists, with that product. */
  function List(db: Db, caller: Option<Id>): (r: seq<Doc<CartLine>>)
    ensures caller.None? ==> r == []
    ensures forall i :: 0 <= i < |r| ==>
              && caller.Some? && r[i].id in db.cart && r[i].value.entry == db.cart[r[i].id]
              && r[i].value.entry.userId == caller.value
              && r[i].value.entry.productId in db.products && r[i].value.product == db.products[r[i].value.entry.productId]
    ensures caller.Some? ==>
              forall k :: k in db.cart && db.cart[k].userId == caller.value && db.cart[k].productId in db.products
                          ==> k in Ids(r)
    ensures Increasing(Ids(r))
  {
    match caller
    case None => []
    case Some(user) =>
      var ids := Matching(db.cart, (e: CartEntry) => e.userId == user, db.clock);
      assert forall i :: 0 <= i < |ids| ==> ids[i] in ids;
      Join(db.cart, db.products, ids)
  }

  /** The `add` mutation: refused for an anonymous caller and for a missing
      or out-of-stock product (the requested quantity is not compared with
      the stock); otherwise merged into the caller's entry for the product,
      or stored as a new entry. */
  function Add(db: Db, caller: Option<Id>, productId: Id, quantity: int): (r: Result<Step<()>>)
    ensures caller.None? ==> r == Err(NotLoggedIn)
    ensures caller.Some? && CartUnique(db) ==>
              (r.Ok? <==> productId in db.products && db.products[productId].inStock)
    ensures caller.Some? && (productId !in db.products || !db.products[productId].inStock) ==>
              r == Err(ProductNotAvailable)
    ensures r.Ok? && CartUnique(db) ==> CartUnique(r.value.db)
    ensures r.Ok? ==> r.value.db.(cart := db.cart, clock := db.clock) == db
    // An existing entry for the pair gains the quantity ...
    ensures r.Ok? ==>
              forall k :: k in db.cart && db.cart[k].userId == caller.value && db.cart[k].productId == productId
                          ==> r.value.db.cart == db.cart[k := db.cart[k].(quantity := db.cart[k].quantity + quantity)]
    // ... otherwise exactly one new entry appears.
    ensures r.Ok? && (forall k :: k in db.cart ==> !(db.cart[k].userId == caller.value && db.cart[k].productId == productId)) ==>
              exists id: Id :: id !in db.cart && r.value.db.cart == db.cart[id := CartEntry(caller.value, productId, quantity)]
  {
    match caller
    case None => Err(NotLoggedIn)
    case Some(user) =>
      if productId !in db.products || !db.products[productId].inStock then Err(ProductNotAvailable)
      else
        var found :- EntryFor(db, user, productId);
        Ok(Put(db, user, productId, quantity, found))
  }

  /** The write `add` makes once the lookup of the pair's entry returned
      `found`: that entry gains the quantity, or a new entry is stored under
      the next id. */
  function Put(db: Db, user: Id, productId: Id, quantity: int, found: Option<Id>): (r: Step<()>)
    requires found.Some? ==>
               && found.value in db.cart
               && db.cart[found.value].userId == user && db.cart[found.value].productId == productId
    requires found.None? ==>
               forall k :: k in db.cart ==> !(db.cart[k].userId == user && db.cart[k].productId == productId)
    ensures r.db.(cart := db.cart, clock := db.clock) == db
    ensures found.Some? ==>
              r.db.cart == db.cart[found.value := db.cart[found.value].(quantity := db.cart[found.value].quantity + quantity)]
    ensures found.None? ==> db.clock !in db.cart && r.db.cart == db.cart[db.clock := CartEntry(user, productId, quantity)]
    ensures UniquePairs(db.cart) ==> UniquePairs(r.db.cart)
  {
    match found
    case Some(k) =>
      var e := db.cart[k];
      PatchKeepsPairs(db.cart, k, quantity);
      Step(db.(cart := db.cart[k := e.(quantity := e.quantity + quantity)]), ())
    case None =>
      var id := db.clock;
      assert id !in db.cart;
      InsertKeepsPairs(db.cart, id, CartEntry(user, productId, quantity));
      Step(db.(cart := db.cart[id := CartEntry(user, productId, quantity)], clock := db.clock + 1), ())
  }

  /** Changing an entry's quantity keeps the pairs unique. */
  lemma PatchKeepsPairs(cart: map<Id, CartEntry>, k: Id, quantity: int)
    requires k in cart
    ensures var after := cart[k := cart[k].(quantity := cart[k].quantity + quantity)];
            && after.Keys == cart.Keys
            && (UniquePairs(cart) ==> UniquePairs(after))
  {
  }

  /** A new entry for a pair the cart lacks keeps the pairs unique. */
  lemma InsertKeepsPairs(cart: map<Id, CartEntry>, id: Id, e: CartEntry)
    requires id !in cart
    requires forall k :: k in cart ==> !(cart[k].userId == e.userId && cart[k].productId == e.productId)
    ensures UniquePairs(cart) ==> UniquePairs(cart[id := e])
  {
  }

  /** Whether `id` names one of the caller's cart entries: the ownership
      check of `remove` and `updateQuantity`. */
  predicate Owns(db: Db, user: Id, id: Id) {
    id in db.cart && db.cart[id].userId == user
  }

  /** The `remove` mutation: deletes the caller's own entry `id` and nothing else. */
  function Remove(db: Db, caller: Option<Id>, id: Id): (r: Result<Step<()>>)
    ensures caller.None? ==> r == Err(NotLoggedIn)
    ensures caller.Some? ==> (r.Ok? <==> Owns(db, caller.value, id))
    ensures caller.Some? && r.Err? ==> r.error == CartItemNotFound
    ensures r.Ok? ==> r.value.db.cart.Keys == db.cart.Keys - {id}
    ensures r.Ok? ==> forall k :: k in r.value.db.cart ==> r.value.db.cart[k] == db.cart[k]
    ensures r.Ok? ==> r.value.db.(cart := db.cart) == db
    ensures r.Ok? && CartUnique(db) ==> CartUnique(r.value.db)
  {
    match caller
    case None => Err(NotLoggedIn)
    case Some(user) =>
      if !Owns(db, user, id) then Err(CartItemNotFound)
      else Ok(Step(db.(cart := db.cart - {id}), ()))
  }

  /** The `updateQuantity` mutation: on the caller's own entry, a quantity
      of zero or less deletes it and any other quantity replaces its own. */
  function UpdateQuantity(db: Db, caller: Option<Id>, id: Id, quantity: int): (r: Result<Step<()>>)
    ensures caller.None? ==> r == Err(NotLoggedIn)
    ensures caller.Some? ==> (r.Ok? <==> Owns(db, caller.value, id))
    ensures caller.Some? && r.Err? ==> r.error == CartItemNotFound
    ensures r.Ok? && quantity <= 0 ==> r.value.db.cart.Keys == db.cart.Keys - {id}
    ensures r.Ok? && quantity > 0 ==>
              && r.value.db.cart.Keys == db.cart.Keys
              && r.value.db.cart[id] == CartEntry(caller.value, db.cart[id].productId, quantity)
    ensures r.Ok? ==> forall k :: k in r.value.db.cart && k != id ==> r.value.db.cart[k] == db.cart[k]
    ensures r.Ok? ==> r.value.db.(cart := db.cart) == db
    ensures r.Ok? && CartUnique(db) ==> CartUnique(r.value.db)
  {
    match caller
    case None => Err(NotLoggedIn)
    case Some(user) =>
      if !Owns(db, user, id) then Err(CartItemNotFound)
      else if quantity <= 0 then Ok(Step(db.(cart := db.cart - {id}), ()))
      else Ok(Step(db.(cart := db.cart[id := db.cart[id].(quantity := quantity)]), ()))
  }

  /** The cart table once every entry of `user` is deleted. */
  function WithoutUser(cart: map<Id, CartEntry>, user: Id): (rest: map<Id, CartEntry>)
    ensures forall k :: k in rest <==> k in cart && cart[k].userId != user
    ensures forall k :: k in rest ==> rest[k] == cart[k]
  {
    map k | k in cart && cart[k].userId != user :: cart[k]
  }

  /** The `clear` mutation: deletes every entry of the caller and no one else's. */
  function Clear(db: Db, caller: Option<Id>): (r: Result<Step<()>>)
    ensures r.Ok? <==> caller.Some?
    ensures caller.None? ==> r == Err(NotLoggedIn)
    ensures r.Ok? ==> forall k :: k in r.value.db.cart ==> r.value.db.cart[k].userId != caller.value
    ensures r.Ok? ==> forall k :: k in db.cart && db.cart[k].userId != caller.value
                                  ==> k in r.value.db.cart && r.value.db.cart[k] == db.cart[k]
    // Every entry left is one that was there, unchanged: the caller's
    // entries are deleted, not handed to anyone else.
    ensures r.Ok? ==> forall k :: k in r.value.db.cart ==> k in db.cart && r.value.db.cart[k] == db.cart[k]
    ensures r.Ok? ==> r.value.db.(cart := db.cart) == db
  {
    match caller
    case None => Err(NotLoggedIn)
    case Some(user) => Ok(Step(db.(cart := WithoutUser(db.cart, user)), ()))
  }

  /** `add` of a pair the cart lacks inserts one entry under the next id. */
  lemma AddInserts(db: Db, user: Id, productId: Id, quantity: int)
    requires productId in db.products && db.products[productId].inStock
    requires forall k :: k in db.cart ==> !(db.cart[k].userId == user && db.cart[k].productId == productId)
    ensures Add(db, Some(user), productId, quantity).Ok?
    ensures Add(db, Some(user), productId, quantity).value.db.cart
            == db.cart[db.clock := CartEntry(user, productId, quantity)]
    ensures Add(db, Some(user), productId, quantity).value.db.products == db.products
  {
    assert EntryFor(db, user, productId) == Ok(None);
  }

  /** `add` of a pair the cart holds once patches that entry. */
  lemma AddPatches(db: Db, user: Id, productId: Id, k: Id, quantity: int)
    requires productId in db.products && db.products[productId].inStock
    requires k in db.cart && db.cart[k].userId == user && db.cart[k].productId == productId
    requires forall j :: j in db.cart && db.cart[j].userId == user && db.cart[j].productId == productId ==> j == k
    ensures Add(db, Some(user), productId, quantity).Ok?
    ensures Add(db, Some(user), productId, quantity).value.db.cart
            == db.cart[k := db.cart[k].(quantity := db.cart[k].quantity + quantity)]
  {
    var found := EntryFor(db, user, productId);
    assert found == Ok(Some(k));
  }

  /** Adding the same product twice to a cart that lacked it leaves exactly
      one entry for the pair, holding the sum of the two quantities. */
  lemma {:induction false} AddTwiceMerges(db: Db, user: Id, productId: Id, first: int, second: int)
    requires productId in db.products && db.products[productId].inStock
    requires forall k :: k in db.cart ==> !(db.cart[k].userId == user && db.cart[k].productId == productId)
    ensures Add(db, Some(user), productId, first).Ok?
    ensures var once := Add(db, Some(user), productId, first).value.db;
            && Add(once, Some(user), productId, second).Ok?
            && var twice := Add(once, Some(user), productId, second).value.db;
            && db.clock in twice.cart && twice.cart[db.clock] == CartEntry(user, productId, first + second)
            && forall j :: j in twice.cart && twice.cart[j].userId == user && twice.cart[j].productId == productId
                           ==> j == db.clock
  {
    AddInserts(db, user, productId, first);
    var once := Add(db, Some(user), productId, first).value.db;
    AddPatches(once, user, productId, db.clock, second);
  }

  /** After `clear`, the caller's cart lists as empty. */
  lemma {:induction false} ClearThenListIsEmpty(db: Db, user: Id)
    ensures Clear(db, Some(user)).Ok?
    ensures List(Clear(db, Some(user)).value.db, Some(user)) == []
  {
  }
}

=== FILE: checkout.dfy ===
/**
 The heart of order placement: the left-to-right pass over the requested
 lines that validates each line against the live product, captures its
 price and name, adds to the running total and takes the stock at once, so
 that a later line sees what the earlier lines took.

 `Fold` is that pass as the mutation runs it. `Drain` and `AllServed` are an
 independent description of the same thing, line by line over prefixes of
 the request; `FoldMeetsReference` proves the two agree.
 */
module Checkout {
  import opened Store
  import opened Schema

  /** One requested line of an order. */
  datatype LineRequest = LineRequest(productId: Id, quantity: int)

  /** Whether `table` can serve `item` as it stands: the product exists, is
      flagged in stock, and holds at least the requested quantity. */
  predicate Serves(table: map<Id, Product>, item: LineRequest) {
    && item.productId in table
    && table[item.productId].inStock
    && table[item.productId].quantity >= item.quantity
  }

  /** The product patch a served line applies: the count drops by the
      requested quantity and the stock flag is recomputed from it. */
  function Decrement(p: Product, quantity: int): Product {
    var left := p.quantity - quantity;
    p.(quantity := left, inStock := left > 0)
  }

  /** The table once `item`'s stock is taken, validation aside. */
  function Deduct(table: map<Id, Product>, item: LineRequest): map<Id, Product> {
    if item.productId in table then table[item.productId := Decrement(table[item.productId], item.quantity)]
    else table
  }

  /** Reference: the table once every line of `items` is deducted in order. */
  function Drain(table: map<Id, Product>, items: seq<LineRequest>): map<Id, Product>
    decreases |items|
  {
    if items == [] then table
    else Deduct(Drain(table, items[..|items| - 1]), items[|items| - 1])
  }

  /** Reference: every line can be served by the table as the lines before
      it left it. */
  predicate AllServed(table: map<Id, Product>, items: seq<LineRequest>) {
    forall i :: 0 <= i < |items| ==> Serves(Drain(table, items[..i]), items[i])
  }

  /** The order line captured for `item` from the product as read. */
  function Snapshot(p: Product, item: LineRequest): OrderItem {
    OrderItem(item.productId, item.quantity, p.price, p.name)
  }

  /** The product name an availability error reports: the product's name,
      or "unknown" when the product is gone or its name is empty (an empty
      string counts as false in `product?.name || 'unknown'`,
      convex/orders.ts:32). */
  function NameOrUnknown(table: map<Id, Product>, id: Id): (r: string)
    ensures r != ""
    ensures id in table && table[id].name != "" ==> r == table[id].name
    ensures id !in table || table[id].name == "" ==> r == "unknown"
  {
    if id in table && table[id].name != "" then table[id].name else "unknown"
  }

  /** The state of the pass: the product table as patched so far, the lines
      captured so far and the running total. */
  datatype Placement = Placement(table: map<Id, Product>, lines: seq<OrderItem>, total: int)

  /** The pass after serving `item`: its stock taken, its line captured
      from the product as read, its amount added to the total. */
  function Advance(p: Placement, item: LineRequest): Placement
    requires item.productId in p.table
  {
    var product := p.table[item.productId];
    Placement(
      p.table[item.productId := Decrement(product, item.quantity)],
      p.lines + [Snapshot(product, item)],
      p.total + product.price * item.quantity)
  }

  /** The pass itself, one line at a time from the front. */
  function Fold(p: Placement, items: seq<LineRequest>): Result<Placement>
    decreases |items|
  {
    if items == [] then Ok(p)
    else
      var item := items[0];
      if !Serves(p.table, item) then Err(Unavailable(NameOrUnknown(p.table, item.productId)))
      else Fold(Advance(p, item), items[1..])
  }

  /** No product holds a negative count. */
  predicate StockNonNegative(table: map<Id, Product>) {
    forall k :: k in table ==> table[k].quantity >= 0
  }

  /** The pass never oversells: a line is served only when the product
      holds at least its quantity, so counts that start non-negative stay
      so. */
  lemma {:induction false} FoldKeepsNonNegative(p: Placement, items: seq<LineRequest>)
    requires StockNonNegative(p.table) && Fold(p, items).Ok?
    ensures StockNonNegative(Fold(p, items).value.table)
    decreases |items|
  {
    if items != [] {
      FoldKeepsNonNegative(Advance(p, items[0]), items[1..]);
    }
  }

  // ---- Facts about the reference ----

  lemma {:induction false} DrainFront(table: map<Id, Product>, items: seq<LineRequest>)
    requires |items| > 0
    ensures Drain(Deduct(table, items[0]), items[1..]) == Drain(table, items)
    decreases |items|
  {
    var n := |items|;
    if n == 1 {
      assert items[1..] == [];
      assert items[..0] == [];
    } else {
      var init := items[..n - 1];
      DrainFront(table, init);
      assert init[0] == items[0];
      assert init[1..] == items[1..][..n - 2];
      assert items[1..][n - 2] == items[n - 1];
    }
  }

  /** A request is served exactly when its first line is served and the
      rest is served by the table that line leaves. */
  lemma {:induction false} AllServedFront(table: map<Id, Product>, items: seq<LineRequest>)
    requires |items| > 0
    ensures AllServed(table, items) <==>
              Serves(table, items[0]) && AllServed(Deduct(table, items[0]), items[1..])
  {
    var after := Deduct(table, items[0]);
    assert items[..0] == [];
    forall i | 1 <= i < |items|
      ensures Drain(table, items[..i]) == Drain(after, items[1..][..i - 1])
      ensures items[i] == items[1..][i - 1]
    {
      DrainFront(table, items[..i]);
      assert items[..i][1..] == items[1..][..i - 1];
    }
    if Serves(table, items[0]) && AllServed(after, items[1..]) {
      forall i | 0 <= i < |items|
        ensures Serves(Drain(table, items[..i]), items[i])
      {
        if i > 0 {
          assert Serves(Drain(after, items[1..][..i - 1]), items[1..][i - 1]);
        }
      }
    }
    if AllServed(table, items) {
      assert Serves(Drain(table, items[..0]), items[0]);
      forall j | 0 <= j < |items| - 1
        ensures Serves(Drain(after, items[1..][..j]), items[1..][j])
      {
        assert Serves(Drain(table, items[..j + 1]), items[j + 1]);
      }
    }
  }

  lemma LinesTotalAppend(lines: seq<OrderItem>, line: OrderItem)
    ensures LinesTotal(lines + [line]) == LinesTotal(lines) + line.price * line.quantity
  {
    assert (lines + [line])[..|lines|] == lines;
  }

  /** Every prefix of a request, drained from the front line on. */
  lemma DrainPrefixFront(table: map<Id, Product>, items: seq<LineRequest>, i: nat)
    requires 1 <= i <= |items|
    ensures Drain(table, items[..i]) == Drain(Deduct(table, items[0]), items[1..][..i - 1])
  {
    DrainFront(table, items[..i]);
    assert items[..i][1..] == items[1..][..i - 1];
  }

  /** The pass succeeds exactly when every line is served by the table the
      earlier lines left. */
  lemma {:induction false} FoldSucceedsIff(p: Placement, items: seq<LineRequest>)
    ensures Fold(p, items).Ok? <==> AllServed(p.table, items)
    decreases |items|
  {
    if items != [] {
      AllServedFront(p.table, items);
      if Serves(p.table, items[0]) {
        assert Advance(p, items[0]).table == Deduct(p.table, items[0]);
        FoldSucceedsIff(Advance(p, items[0]), items[1..]);
      }
    }
  }

  /** A successful pass ends on the drained table, keeps the lines it
      started with, appends one line per request line, and adds exactly the
      new lines' amounts to the total. */
  lemma {:induction false} FoldShape(p: Placement, items: seq<LineRequest>)
    requires Fold(p, items).Ok?
    ensures var r := Fold(p, items).value;
            && r.table == Drain(p.table, items)
            && |r.lines| == |p.lines| + |items|
            && r.lines[..|p.lines|] == p.lines
            && r.total - p.total == LinesTotal(r.lines) - LinesTotal(p.lines)
    decreases |items|
  {
    if items != [] {
      var item := items[0];
      var t := p.table;
      var next := Advance(p, item);
      assert next.table == Deduct(t, item);
      FoldShape(next, items[1..]);
      var r := Fold(p, items).value;
      assert r == Fold(next, items[1..]).value;
      DrainPrefixFront(t, items, |items|);
      assert items[1..][..|items| - 1] == items[1..];
      assert items[..|items|] == items;
      LinesTotalAppend(p.lines, Snapshot(t[item.productId], item));
      assert r.lines[..|p.lines|] == r.lines[..|next.lines|][..|p.lines|];
    }
  }

  /** The pass over `items` succeeds, and each line `i` it appends is
      captured from the table as the lines before it left it, a table that
      serves it. */
  predicate CapturesInTurn(p: Placement, items: seq<LineRequest>) {
    && Fold(p, items).Ok?
    && |Fold(p, items).value.lines| == |p.lines| + |items|
    && forall i :: 0 <= i < |items| ==>
         && Serves(Drain(p.table, items[..i]), items[i])
         && Fold(p, items).value.lines[|p.lines| + i]
            == Snapshot(Drain(p.table, items[..i])[items[i].productId], items[i])
  }

  lemma {:induction false} FoldSnapshots(p: Placement, items: seq<LineRequest>)
    requires Fold(p, items).Ok?
    ensures CapturesInTurn(p, items)
    decreases |items|
  {
    if items != [] {
      var next := Advance(p, items[0]);
      FoldSnapshots(next, items[1..]);
      FoldShape(next, items[1..]);
      SnapshotFirst(p, items);
      forall i | 1 <= i < |items|
        ensures Serves(Drain(p.table, items[..i]), items[i])
        ensures Fold(p, items).value.lines[|p.lines| + i]
                == Snapshot(Drain(p.table, items[..i])[items[i].productId], items[i])
      {
        CapturedAt(next, items[1..], i - 1);
        SnapshotLater(p, items, i);
      }
    }
  }

  /** The first line is captured from the table the pass starts on. */
  lemma SnapshotFirst(p: Placement, items: seq<LineRequest>)
    requires |items| > 0 && Serves(p.table, items[0])
    requires var next := Advance(p, items[0]);
             && CapturesInTurn(next, items[1..])
             && Fold(next, items[1..]).value.lines[..|next.lines|] == next.lines
    ensures Fold(p, items).Ok? && |Fold(p, items).value.lines| == |p.lines| + |items|
    ensures Serves(Drain(p.table, items[..0]), items[0])
    ensures Fold(p, items).value.lines[|p.lines|]
            == Snapshot(Drain(p.table, items[..0])[items[0].productId], items[0])
  {
    var next := Advance(p, items[0]);
    var r := Fold(next, items[1..]).value;
    assert Fold(p, items) == Fold(next, items[1..]);
    assert items[..0] == [];
    assert r.lines[|p.lines|] == r.lines[..|next.lines|][|p.lines|];
  }

  /** Line `i` past the first is captured as the pass from the second line
      on captured its line `i - 1`, from the table the earlier lines left. */
  lemma SnapshotLater(p: Placement, items: seq<LineRequest>, i: nat)
    requires 1 <= i < |items| && Serves(p.table, items[0])
    requires var next := Advance(p, items[0]);
             && Fold(next, items[1..]).Ok?
             && |Fold(next, items[1..]).value.lines| == |next.lines| + |items| - 1
             && Serves(Drain(next.table, items[1..][..i - 1]), items[1..][i - 1])
             && Fold(next, items[1..]).value.lines[|next.lines| + (i - 1)]
                == Snapshot(Drain(next.table, items[1..][..i - 1])[items[1..][i - 1].productId], items[1..][i - 1])
    ensures Fold(p, items).Ok? && |Fold(p, items).value.lines| == |p.lines| + |items|
    ensures Serves(Drain(p.table, items[..i]), items[i])
    ensures Fold(p, items).value.lines[|p.lines| + i]
            == Snapshot(Drain(p.table, items[..i])[items[i].productId], items[i])
  {
    FoldFront(p, items);
    DrainPrefixFront(p.table, items, i);
    assert items[1..][i - 1] == items[i];
  }

  /** A pass whose first line is served goes on from the advanced state. */
  lemma FoldFront(p: Placement, items: seq<LineRequest>)
    requires |items| > 0 && Serves(p.table, items[0])
    ensures Fold(p, items) == Fold(Advance(p, items[0]), items[1..])
    ensures Advance(p, items[0]).table == Deduct(p.table, items[0])
    ensures |Advance(p, items[0]).lines| == |p.lines| + 1
  {
  }

  /** What `CapturesInTurn` says about line `j`. */
  lemma CapturedAt(p: Placement, items: seq<LineRequest>, j: nat)
    requires CapturesInTurn(p, items) && j < |items|
    ensures Fold(p, items).Ok? && |Fold(p, items).value.lines| == |p.lines| + |items|
    ensures Serves(Drain(p.table, items[..j]), items[j])
    ensures Fold(p, items).value.lines[|p.lines| + j]
            == Snapshot(Drain(p.table, items[..j])[items[j].productId], items[j])
  {
  }

  /** A successful pass agrees with the reference: it ends on the drained
      table, appends one captured line per request line, read from the table
      as the earlier lines left it, and adds exactly those lines' amounts to
      the total. */
  lemma FoldMeetsReference(p: Placement, items: seq<LineRequest>)
    requires Fold(p, items).Ok?
    ensures var r := Fold(p, items).value;
            && r.table == Drain(p.table, items)
            && |r.lines| == |p.lines| + |items|
            && r.lines[..|p.lines|] == p.lines
            && r.total - p.total == LinesTotal(r.lines) - LinesTotal(p.lines)
    ensures forall i :: 0 <= i < |items| ==>
              && Serves(Drain(p.table, items[..i]), items[i])
              && Fold(p, items).value.lines[|p.lines| + i]
                 == Snapshot(Drain(p.table, items[..i])[items[i].productId], items[i])
  {
    FoldShape(p, items);
    FoldSnapshots(p, items);
  }

  /** A failing pass fails on the first line that cannot be served, and its
      error names that line's product. */
  lemma {:induction false} FoldFailsAtFirstUnserved(p: Placement, items: seq<LineRequest>)
    requires Fold(p, items).Err?
    ensures exists i :: && 0 <= i < |items| && AllServed(p.table, items[..i])
                        && !Serves(Drain(p.table, items[..i]), items[i])
                        && Fold(p, items).error == Unavailable(NameOrUnknown(Drain(p.table, items[..i]), items[i].productId))
    decreases |items|
  {
    if !Serves(p.table, items[0]) {
      assert items[..0] == [];
      assert AllServed(p.table, items[..0]);
    } else {
      var next := Advance(p, items[0]);
      FoldFront(p, items);
      FoldFailsAtFirstUnserved(next, items[1..]);
      var j :| && 0 <= j < |items| - 1 && AllServed(next.table, items[1..][..j])
               && !Serves(Drain(next.table, items[1..][..j]), items[1..][j])
               && Fold(next, items[1..]).error
                  == Unavailable(NameOrUnknown(Drain(next.table, items[1..][..j]), items[1..][j].productId));
      FailureShifts(p, items, j);
    }
  }

  /** A failure at line `j` of the pass from the second line on is a
      failure at line `j + 1` of the whole pass. */
  lemma FailureShifts(p: Placement, items: seq<LineRequest>, j: nat)
    requires |items| > 0 && Serves(p.table, items[0]) && j < |items| - 1
    requires var next := Advance(p, items[0]);
             && Fold(next, items[1..]).Err?
             && AllServed(next.table, items[1..][..j])
             && !Serves(Drain(next.table, items[1..][..j]), items[1..][j])
             && Fold(next, items[1..]).error
                == Unavailable(NameOrUnknown(Drain(next.table, items[1..][..j]), items[1..][j].productId))
    ensures Fold(p, items).Err?
    ensures AllServed(p.table, items[..j + 1])
    ensures !Serves(Drain(p.table, items[..j + 1]), items[j + 1])
    ensures Fold(p, items).error
            == Unavailable(NameOrUnknown(Drain(p.table, items[..j + 1]), items[j + 1].productId))
  {
    FoldFront(p, items);
    assert items[..j + 1][0] == items[0] && items[..j + 1][1..] == items[1..][..j];
    AllServedFront(p.table, items[..j + 1]);
    DrainPrefixFront(p.table, items, j + 1);
    assert items[j + 1] == items[1..][j];
  }

  /** How much of product `id` the lines of `items` request in total. */
  function Requested(items: seq<LineRequest>, id: Id): int
    decreases |items|
  {
    if items == [] then 0
    else
      var last := items[|items| - 1];
      Requested(items[..|items| - 1], id) + (if last.productId == id then last.quantity else 0)
  }

  /** Whether some line of `items` names product `id`. */
  predicate Mentions(items: seq<LineRequest>, id: Id) {
    exists j :: 0 <= j < |items| && items[j].productId == id
  }

  /** Draining leaves the set of products alone and changes nothing about a
      product but its stock: the count drops by everything requested of it,
      the flag of a product some line names agrees with its count, and a
      product no line names is untouched. */
  lemma {:induction false} DrainStock(table: map<Id, Product>, items: seq<LineRequest>, id: Id)
    ensures id in Drain(table, items) <==> id in table
    ensures id in table ==>
              var p := Drain(table, items)[id];
              && p.quantity == table[id].quantity - Requested(items, id)
              && p.(quantity := table[id].quantity, inStock := table[id].inStock) == table[id]
              && (Mentions(items, id) ==> StockFlagAgrees(p))
              && (!Mentions(items, id) ==> p == table[id])
    decreases |items|
  {
    if items != [] {
      var init := items[..|items| - 1];
      DrainStock(table, init, id);
      if Mentions(items, id) && items[|items| - 1].productId != id {
        var j :| 0 <= j < |items| && items[j].productId == id;
        assert init[j] == items[j];
      }
      if Mentions(init, id) {
        var j :| 0 <= j < |init| && init[j] == items[j] && init[j].productId == id;
      }
    }
  }

  /** The keys of a drained table are the keys of the table. */
  lemma DrainKeys(table: map<Id, Product>, items: seq<LineRequest>)
    ensures Drain(table, items).Keys == table.Keys
  {
    forall id | id in Drain(table, items) || id in table
      ensures id in Drain(table, items) && id in table
    {
      DrainStock(table, items, id);
    }
  }

  /** Each line the pass captures carries the price and name the product
      had before the order touched it: stock deductions change neither. */
  lemma {:induction false} CapturedFromCatalogue(table: map<Id, Product>, items: seq<LineRequest>)
    requires Fold(Placement(table, [], 0), items).Ok?
    ensures var r := Fold(Placement(table, [], 0), items).value;
            && |r.lines| == |items|
            && forall i :: 0 <= i < |items| ==>
                 && items[i].productId in table
                 && r.lines[i] == OrderItem(items[i].productId, items[i].quantity,
                                            table[items[i].productId].price, table[items[i].productId].name)
  {
    var r := Fold(Placement(table, [], 0), items).value;
    FoldMeetsReference(Placement(table, [], 0), items);
    forall i | 0 <= i < |items|
      ensures items[i].productId in table
      ensures r.lines[i] == OrderItem(items[i].productId, items[i].quantity,
                                      table[items[i].productId].price, table[items[i].productId].name)
    {
      var id := items[i].productId;
      assert Serves(Drain(table, items[..i]), items[i]);
      DrainStock(table, items[..i], id);
      assert r.lines[0 + i] == Snapshot(Drain(table, items[..i])[id], items[i]);
    }
  }

  /** The pass as the mutation starts it: an empty order and a zero total. */
  function PlaceItems(table: map<Id, Product>, items: seq<LineRequest>): (r: Result<Placement>)
    ensures r.Ok? <==> AllServed(table, items)
    ensures r.Ok? ==> r.value.table == Drain(table, items) && r.value.table.Keys == table.Keys
    // The captured lines follow the request, line for line ...
    ensures r.Ok? ==> |r.value.lines| == |items|
    ensures r.Ok? ==> forall i :: 0 <= i < |items| ==>
              && items[i].productId in table
              && r.value.lines[i] == OrderItem(items[i].productId, items[i].quantity,
                                               table[items[i].productId].price, table[items[i].productId].name)
    // ... and the total is what they add up to.
    ensures r.Ok? ==> r.value.total == LinesTotal(r.value.lines)
    ensures r.Err? ==>
              exists i :: && 0 <= i < |items| && AllServed(table, items[..i])
                          && !Serves(Drain(table, items[..i]), items[i])
                          && r.error == Unavailable(NameOrUnknown(Drain(table, items[..i]), items[i].productId))
  {
    var start := Placement(table, [], 0);
    FoldSucceedsIff(start, items);
    DrainKeys(table, items);
    if Fold(start, items).Ok? then
      FoldMeetsReference(start, items);
      CapturedFromCatalogue(table, items);
      Fold(start, items)
    else
      FoldFailsAtFirstUnserved(start, items);
      Fold(start, items)
  }
}

=== FILE: invariants.dfy ===
/**
 The application-level invariants the storefront keeps without any help
 from the store, and proofs that every mutation keeps them, alone and in
 any sequence.
 */
module Invariants {
  import opened Store
  import opened Schema
  import Checkout
  import Auth
  import AdminSetup
  import Products
  import Cart
  import Orders

  /** At most one role per user, at most one cart entry per (user,
      product), and every order's total equal to the sum of its lines. */
  predicate Consistent(db: Db) {
    RolesUnique(db) && CartUnique(db) && TotalsConsistent(db)
  }

  /** Every product's stock flag agrees with its count. */
  predicate StockFlagsAgree(db: Db) {
    forall k :: k in db.products ==> StockFlagAgrees(db.products[k])
  }

  /** A mutation request, with its arguments. */
  datatype Call =
    | SetUserRole(target: Id, role: Role)
    | MakeUserAdmin(user: Id)
    | CreateProduct(listing: Products.Listing)
    | UpdateProduct(id: Id, fields: Products.Listing, inStock: bool)
    | DeleteProduct(id: Id)
    | InitSampleData
    | AddToCart(productId: Id, quantity: int)
    | RemoveFromCart(cartId: Id)
    | UpdateCartQuantity(cartId: Id, quantity: int)
    | ClearCart
    | PlaceOrder(items: seq<Checkout.LineRequest>, address: Address)

  /** The state a call leaves behind, rolled back when it throws. */
  function After(db: Db, caller: Option<Id>, c: Call): Db {
    match c
    case SetUserRole(target, role) => Commit(db, Auth.SetUserRole(db, caller, target, role))
    case MakeUserAdmin(user) => Commit(db, AdminSetup.MakeUserAdmin(db, user))
    case CreateProduct(l) => Commit(db, Products.Create(db, caller, l))
    case UpdateProduct(id, l, inStock) => Commit(db, Products.Update(db, caller, id, l, inStock))
    case DeleteProduct(id) => Commit(db, Products.DeleteProduct(db, caller, id))
    case InitSampleData => Products.InitSampleData(db).db
    case AddToCart(productId, quantity) => Commit(db, Cart.Add(db, caller, productId, quantity))
    case RemoveFromCart(id) => Commit(db, Cart.Remove(db, caller, id))
    case UpdateCartQuantity(id, quantity) => Commit(db, Cart.UpdateQuantity(db, caller, id, quantity))
    case ClearCart => Commit(db, Cart.Clear(db, caller))
    case PlaceOrder(items, address) => Commit(db, Orders.Create(db, caller, items, address))
  }

  lemma CartUniqueWhenShrunk(db: Db, after: Db)
    requires CartUnique(db)
    requires forall k :: k in after.cart ==> k in db.cart && after.cart[k] == db.cart[k]
    ensures CartUnique(after)
  {
  }

  lemma RoleCallKeepsConsistency(db: Db, caller: Option<Id>, c: Call)
    requires Consistent(db) && (c.SetUserRole? || c.MakeUserAdmin?)
    ensures Consistent(After(db, caller, c))
  {
  }

  lemma CatalogueCallKeepsConsistency(db: Db, caller: Option<Id>, c: Call)
    requires Consistent(db)
    requires c.CreateProduct? || c.UpdateProduct? || c.DeleteProduct? || c.InitSampleData?
    ensures Consistent(After(db, caller, c))
  {
  }

  lemma AddKeepsConsistency(db: Db, caller: Option<Id>, productId: Id, quantity: int)
    requires Consistent(db)
    ensures Consistent(After(db, caller, AddToCart(productId, quantity)))
  {
  }

  lemma UpdateQuantityKeepsConsistency(db: Db, caller: Option<Id>, id: Id, quantity: int)
    requires Consistent(db)
    ensures Consistent(After(db, caller, UpdateCartQuantity(id, quantity)))
  {
  }

  lemma RemoveKeepsConsistency(db: Db, caller: Option<Id>, id: Id)
    requires Consistent(db)
    ensures Consistent(After(db, caller, RemoveFromCart(id)))
  {
    var after := After(db, caller, RemoveFromCart(id));
    if after != db {
      CartUniqueWhenShrunk(db, after);
    }
  }

  lemma ClearKeepsConsistency(db: Db, caller: Option<Id>)
    requires Consistent(db)
    ensures Consistent(After(db, caller, ClearCart))
  {
    if caller.Some? {
      CartUniqueWhenShrunk(db, After(db, caller, ClearCart));
    }
  }

  lemma PlaceOrderKeepsConsistency(db: Db, caller: Option<Id>, items: seq<Checkout.LineRequest>, address: Address)
    requires Consistent(db)
    ensures Consistent(After(db, caller, PlaceOrder(items, address)))
  {
    var r := Orders.Create(db, caller, items, address);
    if r.Ok? {
      assert After(db, caller, PlaceOrder(items, address)) == r.value.db;
      assert r.value.db.userRoles == db.userRoles;
      Orders.CreateKeepsTotals(db, caller, items, address);
      CartUniqueWhenShrunk(db, r.value.db);
    }
  }

  /** Every call keeps the invariants. */
  lemma {:induction false} CallKeepsConsistency(db: Db, caller: Option<Id>, c: Call)
    requires Consistent(db)
    ensures Consistent(After(db, caller, c))
  {
    match c {
      case SetUserRole(_, _) => RoleCallKeepsConsistency(db, caller, c);
      case MakeUserAdmin(_) => RoleCallKeepsConsistency(db, caller, c);
      case CreateProduct(_) => CatalogueCallKeepsConsistency(db, caller, c);
      case UpdateProduct(_, _, _) => CatalogueCallKeepsConsistency(db, caller, c);
      case DeleteProduct(_) => CatalogueCallKeepsConsistency(db, caller, c);
      case InitSampleData => CatalogueCallKeepsConsistency(db, caller, c);
      case AddToCart(productId, quantity) => AddKeepsConsistency(db, caller, productId, quantity);
      case RemoveFromCart(id) => RemoveKeepsConsistency(db, caller, id);
      case UpdateCartQuantity(id, quantity) => UpdateQuantityKeepsConsistency(db, caller, id, quantity);
      case ClearCart => ClearKeepsConsistency(db, caller);
      case PlaceOrder(items, address) => PlaceOrderKeepsConsistency(db, caller, items, address);
    }
  }

  /** The state a sequence of calls leaves behind, each by its own caller. */
  function Replay(db: Db, calls: seq<(Option<Id>, Call)>): Db
    decreases |calls|
  {
    if calls == [] then db
    else Replay(After(db, calls[0].0, calls[0].1), calls[1..])
  }

  /** Starting from a consistent state, any sequence of calls keeps it consistent. */
  lemma {:induction false} ReplayKeepsConsistency(db: Db, calls: seq<(Option<Id>, Call)>)
    requires Consistent(db)
    ensures Consistent(Replay(db, calls))
    decreases |calls|
  {
    if calls != [] {
      CallKeepsConsistency(db, calls[0].0, calls[0].1);
      ReplayKeepsConsistency(After(db, calls[0].0, calls[0].1), calls[1..]);
    }
  }

  /** Every call except a product update keeps every stock flag in line with
      its count: creation derives the flag, order placement recomputes it
      for each product it touches, and nothing else writes either field. */
  lemma {:induction false} StockFlagsKeptBarUpdate(db: Db, caller: Option<Id>, c: Call)
    requires StockFlagsAgree(db)
    requires !c.UpdateProduct?
    ensures StockFlagsAgree(After(db, caller, c))
  {
    match c {
      case PlaceOrder(items, address) =>
        var r := Orders.Create(db, caller, items, address);
        if r.Ok? {
          Orders.CreateDrainsStock(db, caller, items, address);
          forall k | k in r.value.db.products
            ensures StockFlagAgrees(r.value.db.products[k])
          {
            Checkout.DrainStock(db.products, items, k);
          }
        }
      case SetUserRole(_, _) =>
      case MakeUserAdmin(_) =>
      case CreateProduct(_) =>
      case DeleteProduct(_) =>
      case InitSampleData =>
      case AddToCart(_, _) =>
      case RemoveFromCart(_) =>
      case UpdateCartQuantity(_, _) =>
      case ClearCart =>
    }
  }

  /** Every call except the two catalogue writes that take a count from
      the caller keeps every product's count non-negative: order placement
      never oversells, the sample product has 5 units, and nothing else
      writes a count. */
  lemma {:induction false} StockNonNegativeKeptBarCatalogueWrites(db: Db, caller: Option<Id>, c: Call)
    requires Checkout.StockNonNegative(db.products)
    requires !c.CreateProduct? && !c.UpdateProduct?
    ensures Checkout.StockNonNegative(After(db, caller, c).products)
  {
    match c {
      case PlaceOrder(items, address) => Orders.CreateNeverOversells(db, caller, items, address);
      case SetUserRole(_, _) =>
      case MakeUserAdmin(_) =>
      case DeleteProduct(_) =>
      case InitSampleData =>
      case AddToCart(_, _) =>
      case RemoveFromCart(_) =>
      case UpdateCartQuantity(_, _) =>
      case ClearCart =>
    }
  }

  /** No storefront mutation (no call of `Call`) writes the users table,
      which the authentication provider's own sign-in mutations maintain,
      so `loggedInUser` answers the same after any such call. */
  lemma {:induction false} LoggedInUserUnchanged(db: Db, caller: Option<Id>, c: Call, who: Option<Id>)
    ensures After(db, caller, c).users == db.users
    ensures Auth.LoggedInUser(After(db, caller, c), who) == Auth.LoggedInUser(db, who)
  {
  }

  /** A product update stores the caller's stock flag as given, so an admin
      can mark a product with no units as in stock. */
  lemma UpdateCanSplitFlagFromCount(db: Db, admin: Id, id: Id, l: Products.Listing)
    requires RolesUnique(db) && HasRole(db, admin, Admin) && id in db.products
    requires l.quantity == 0
    ensures var after := After(db, Some(admin), UpdateProduct(id, l, true));
            && id in after.products && !StockFlagAgrees(after.products[id])
  {
  }
}

=== FILE: orders.dfy ===
/**
 Orders: placing one from a list of requested lines, and reading back the
 caller's own orders.
 */
module Orders {
  import opened Store
  import opened Schema
  import opened Checkout
  import Cart

  /** `o` is the order `create` stores for `user`: pending and unpaid, sent
      to `address`, its lines those of `items` in request order with the
      price and name `catalogue` held for each product, and its total their
      sum. */
  predicate IsPlacedOrder(o: Order, user: Id, items: seq<LineRequest>, address: Address,
                          catalogue: map<Id, Product>) {
    && o.userId == user
    && o.status == Pending && o.paymentStatus == PaymentPending
    && o.shippingAddress == address
    && o.totalAmount == LinesTotal(o.items)
    && |o.items| == |items|
    && forall i :: 0 <= i < |items| ==>
         && items[i].productId in catalogue
         && o.items[i] == OrderItem(items[i].productId, items[i].quantity,
                                    catalogue[items[i].productId].price,
                                    catalogue[items[i].productId].name)
  }

  /** The `create` mutation. An anonymous caller is refused. Otherwise every
      requested line is served in order (see `Checkout`); if any line cannot
      be, the whole mutation throws and nothing it patched survives. On
      success a pending, unpaid order owned by the caller is stored, the
      products keep the stock the lines left them, and the caller's whole
      cart is emptied, whatever it held. The output is the new order's id. */
  function Create(db: Db, caller: Option<Id>, items: seq<LineRequest>, address: Address): (r: Result<Step<Id>>)
    ensures caller.None? ==> r == Err(NotLoggedIn)
    ensures caller.Some? ==> (r.Ok? <==> AllServed(db.products, items))
    ensures caller.Some? && r.Err? ==> r.error.Unavailable?
    // One new order, the caller's, holding the requested lines.
    ensures r.Ok? ==>
              && r.value.out !in db.orders && r.value.out in r.value.db.orders
              && r.value.db.orders == db.orders[r.value.out := r.value.db.orders[r.value.out]]
              && caller.Some?
              && IsPlacedOrder(r.value.db.orders[r.value.out], caller.value, items, address, db.products)
    // The caller's cart is emptied; nobody else's is touched.
    ensures r.Ok? ==> forall k :: k in r.value.db.cart ==> r.value.db.cart[k].userId != caller.value
    ensures r.Ok? ==> forall k :: k in db.cart && db.cart[k].userId != caller.value
                                  ==> k in r.value.db.cart && r.value.db.cart[k] == db.cart[k]
    // Every entry left is one that was there, unchanged: the caller's
    // entries are deleted, not handed to anyone else.
    ensures r.Ok? ==> forall k :: k in r.value.db.cart ==> k in db.cart && r.value.db.cart[k] == db.cart[k]
    ensures r.Ok? ==> r.value.db.users == db.users && r.value.db.userRoles == db.userRoles
                      && r.value.db.categories == db.categories
  {
    match caller
    case None => Err(NotLoggedIn)
    case Some(user) =>
      var placed :- PlaceItems(db.products, items);
      var id := db.clock;
      var order := Order(user, placed.lines, placed.total, Pending, address, PaymentPending);
      Ok(Step(db.(products := placed.table,
                  orders := db.orders[id := order],
                  cart := Cart.WithoutUser(db.cart, user),
                  clock := db.clock + 1),
              id))
  }

  /** A placed order leaves each product with the stock its lines left it,
      each line's quantity taken in turn (see `Checkout.DrainStock` for the
      per-product count). */
  lemma CreateDrainsStock(db: Db, caller: Option<Id>, items: seq<LineRequest>, address: Address)
    requires Create(db, caller, items, address).Ok?
    ensures Create(db, caller, items, address).value.db.products == Drain(db.products, items)
  {
  }

  /** Placing an order never takes a product's stock below zero: each line
      is checked against the count the earlier lines left, and a failing
      order is rolled back. */
  lemma CreateNeverOversells(db: Db, caller: Option<Id>, items: seq<LineRequest>, address: Address)
    requires StockNonNegative(db.products)
    ensures StockNonNegative(Commit(db, Create(db, caller, items, address)).products)
  {
    if caller.Some? && Create(db, caller, items, address).Ok? {
      FoldKeepsNonNegative(Placement(db.products, [], 0), items);
    }
  }

  /** Placing an order keeps every stored order's total equal to the sum
      of its lines: the old orders are untouched and the new one is built
      that way. */
  lemma CreateKeepsTotals(db: Db, caller: Option<Id>, items: seq<LineRequest>, address: Address)
    requires TotalsConsistent(db) && Create(db, caller, items, address).Ok?
    ensures TotalsConsistent(Create(db, caller, items, address).value.db)
  {
  }

  /** The `list` query: nothing for an anonymous caller; otherwise every
      order of the caller and no one else's, newest first. */
  function List(db: Db, caller: Option<Id>): (r: seq<Doc<Order>>)
    ensures caller.None? ==> r == []
    ensures forall i :: 0 <= i < |r| ==>
              && caller.Some? && r[i].id in db.orders && db.orders[r[i].id] == r[i].value
              && r[i].value.userId == caller.value
    ensures caller.Some? ==>
              forall k :: k in db.orders && db.orders[k].userId == caller.value ==> k in Ids(r)
    ensures Decreasing(Ids(r))
  {
    match caller
    case None => []
    case Some(user) =>
      var ids := Newest(db.orders, (o: Order) => o.userId == user, db.clock);
      assert forall i :: 0 <= i < |ids| ==> ids[i] in ids;
      Docs(db.orders, ids)
  }

  /** The `get` query: the order only when it exists and is the caller's;
      a missing order and someone else's look the same. */
  function Get(db: Db, caller: Option<Id>, id: Id): (r: Option<Order>)
    ensures r.Some? <==> caller.Some? && id in db.orders && db.orders[id].userId == caller.value
    ensures r.Some? ==> r.value == db.orders[id]
  {
    match caller
    case None => None
    case Some(user) =>
      if id !in db.orders || db.orders[id].userId != user then None
      else Some(db.orders[id])
  }

  /** `get` and `list` hide the same orders: an order can be fetched
      exactly when it appears in the caller's list, and it is fetched as
      listed. */
  lemma GetAgreesWithList(db: Db, caller: Option<Id>, id: Id)
    ensures Get(db, caller, id).Some? <==> id in Ids(List(db, caller))
    ensures Get(db, caller, id).Some? ==> Doc(id, Get(db, caller, id).value) in List(db, caller)
  {
    var r := List(db, caller);
    if id in Ids(r) {
      var i :| 0 <= i < |r| && Ids(r)[i] == id;
      assert r[i] == Doc(id, db.orders[id]);
    }
  }

  /** A line asking for more than the product holds makes the whole order
      throw, and the committed state is the original one: no stock taken,
      no order stored, the cart as it was. */
  lemma {:induction false} ShortStockRollsBack(db: Db, user: Id, items: seq<LineRequest>, address: Address, i: nat)
    requires i < |items| && items[i].productId in db.products
    requires forall j :: 0 <= j < |items| ==> items[j].productId != items[i].productId || j == i
    requires db.products[items[i].productId].quantity < items[i].quantity
    ensures Create(db, Some(user), items, address).Err?
    ensures Commit(db, Create(db, Some(user), items, address)) == db
  {
    var id := items[i].productId;
    DrainStock(db.products, items[..i], id);
    assert Requested(items[..i], id) == 0 by {
      RequestedAbsent(items[..i], id);
    }
    assert !Serves(Drain(db.products, items[..i]), items[i]);
  }

  lemma {:induction false} RequestedAbsent(items: seq<LineRequest>, id: Id)
    requires forall j :: 0 <= j < |items| ==> items[j].productId != id
    ensures Requested(items, id) == 0
    decreases |items|
  {
    if items != [] {
      RequestedAbsent(items[..|items| - 1], id);
    }
  }

  /** An out-of-stock product whose name is empty is reported as "unknown",
      as is one that is gone: convex/orders.ts:32 builds the name with
      `product?.name || 'unknown'`, and an empty name counts as false. */
  lemma UnnamedProductReportsUnknown(db: Db, user: Id, productId: Id, address: Address)
    requires productId in db.products
    requires db.products[productId].name == "" && !db.products[productId].inStock
    ensures Create(db, Some(user), [LineRequest(productId, 1)], address) == Err(Unavailable("unknown"))
  {
    var items := [LineRequest(productId, 1)];
    assert items[..0] == [];
    assert !Serves(Drain(db.products, items[..0]), items[0]);
  }

  /** The same product twice in one order: with 3 in stock, two lines of 2
      each fail, because the second line sees the 1 unit the first left;
      the rollback keeps all 3. */
  lemma DuplicateLineSeesEarlierDeduction(db: Db, user: Id, productId: Id, address: Address)
    requires productId in db.products
    requires db.products[productId].quantity == 3 && db.products[productId].inStock
    ensures var items := [LineRequest(productId, 2), LineRequest(productId, 2)];
            && Create(db, Some(user), items, address).Err?
            && Commit(db, Create(db, Some(user), items, address)).products[productId].quantity == 3
  {
    var items := [LineRequest(productId, 2), LineRequest(productId, 2)];
    assert items[..1] == [items[0]];
    assert items[..0] == [];
    assert items[..1][..0] == [];
    assert Drain(db.products, items[..1]) == Deduct(db.products, items[0]);
    assert Drain(db.products, items[..1])[productId].quantity == 1;
    assert !Serves(Drain(db.products, items[..1]), items[1]);
  }

  /** A product with 5 units, ordered 3: the order goes through, 2 units
      remain and the product stays in stock, the total is three times the
      price, and the caller's cart is empty afterwards. */
  lemma CheckoutOfThreeFromFive(db: Db, user: Id, productId: Id, address: Address)
    requires productId in db.products
    requires db.products[productId].quantity == 5 && db.products[productId].inStock
    ensures var r := Create(db, Some(user), [LineRequest(productId, 3)], address);
            && r.Ok?
            && r.value.db.products[productId].quantity == 2
            && r.value.db.products[productId].inStock
            && r.value.db.orders[r.value.out].totalAmount == 3 * db.products[productId].price
            && forall k :: k in r.value.db.cart ==> r.value.db.cart[k].userId != user
  {
    var items := [LineRequest(productId, 3)];
    assert items[..0] == [];
    assert items[..1] == items;
    assert AllServed(db.products, items);
    var o := Create(db, Some(user), items, address).value;
    var line := OrderItem(productId, 3, db.products[productId].price, db.products[productId].name);
    assert o.db.orders[o.out].items == [line];
    assert [line][..0] == [];
    assert LinesTotal([line]) == line.price * 3;
  }

  /** Line quantities are not required to be positive: a line asking for a
      negative amount of an in-stock product is served, puts that many units
      back into stock, and makes the order's total minus that many times the
      price, which is negative for a positive price. */
  lemma NegativeLineRestocks(db: Db, user: Id, productId: Id, n: int, address: Address)
    requires productId in db.products && db.products[productId].inStock
    requires db.products[productId].quantity >= 0 && n > 0
    ensures var r := Create(db, Some(user), [LineRequest(productId, -n)], address);
            && r.Ok?
            && r.value.db.products[productId].quantity == db.products[productId].quantity + n
            && r.value.db.orders[r.value.out].totalAmount == -n * db.products[productId].price
            && (db.products[productId].price > 0 ==> r.value.db.orders[r.value.out].totalAmount < 0)
  {
    var items := [LineRequest(productId, -n)];
    assert items[..0] == [];
    assert items[..1] == items;
    assert AllServed(db.products, items);
    var o := Create(db, Some(user), items, address).value;
    var line := OrderItem(productId, -n, db.products[productId].price, db.products[productId].name);
    assert o.db.orders[o.out].items == [line];
    assert [line][..0] == [];
    assert LinesTotal([line]) == line.price * -n;
  }
}

=== FILE: products.dfy ===
/**
 The product catalogue: the filtered listing, the single-product lookup,
 the admin-only create, update and delete mutations, and the sample-data
 seeding mutation. Image URLs are not resolved here.
 */
module Products {
  import opened Store
  import opened Schema
  import Roles

  /** The fields an administrator supplies for a product. Optional fields
      left out are `None`. */
  datatype Listing = Listing(
    name: string,
    description: string,
    price: int,
    imageId: Option<Id>,
    category: string,
    materials: seq<string>,
    dimensions: Option<string>,
    weight: Option<string>,
    quantity: int,
    featured: Option<bool>,
    artistNotes: Option<string>)

  /** The number of products a listing returns when no usable limit is
      given: an absent limit or a limit of 0 both mean this. */
  const DefaultPageSize := 50

  /** The index a listing reads: the category, when a non-empty one is
      given; failing that the featured flag, when it is set; else the whole
      table. */
  datatype Filter = ByCategory(category: string) | FeaturedOnly | Everything

  function ChooseFilter(category: Option<string>, featured: Option<bool>): Filter {
    if category.Some? && category.value != "" then ByCategory(category.value)
    else if featured == Some(true) then FeaturedOnly
    else Everything
  }

  predicate Selects(f: Filter, p: Product) {
    match f
    case ByCategory(c) => p.category == c
    case FeaturedOnly => p.featured == Some(true)
    case Everything => true
  }

  function PageSize(limit: Option<int>): int {
    if limit.None? || limit.value == 0 then DefaultPageSize else limit.value
  }

  /** The `list` query: the oldest products the chosen filter selects, at
      most one page of them. */
  function List(db: Db, category: Option<string>, featured: Option<bool>, limit: Option<int>): (r: seq<Doc<Product>>)
    // Filter precedence: a non-empty category wins over the featured flag.
    ensures category.Some? && category.value != "" ==>
              forall i :: 0 <= i < |r| ==> r[i].value.category == category.value
    ensures (category.None? || category.value == "") && featured == Some(true) ==>
              forall i :: 0 <= i < |r| ==> r[i].value.featured == Some(true)
    // Page size: the limit when it is positive, 50 when it is absent or 0.
    ensures limit.None? || limit.value == 0 ==> |r| <= 50
    ensures limit.Some? && limit.value != 0 ==> |r| <= limit.value || |r| == 0
    // Each result is a stored product, oldest first.
    ensures forall i :: 0 <= i < |r| ==> r[i].id in db.products && db.products[r[i].id] == r[i].value
    ensures forall i, j :: 0 <= i < j < |r| ==> r[i].id < r[j].id
    // A page shorter than the page size holds every selected product.
    ensures |r| < PageSize(limit) ==>
              forall k :: k in db.products && Selects(ChooseFilter(category, featured), db.products[k])
                          ==> k in Ids(r)
    // A full page holds the oldest selected products.
    ensures forall i, k :: 0 <= i < |r| && k in db.products && k < r[i].id
                           && Selects(ChooseFilter(category, featured), db.products[k])
                           ==> k in Ids(r)[..i]
  {
    var filter := ChooseFilter(category, featured);
    var ids := Oldest(db.products, (p: Product) => Selects(filter, p), db.clock, PageSize(limit));
    Docs(db.products, ids)
  }

  /** The `get` query: the product, or nothing for an id that does not resolve. */
  function Get(db: Db, id: Id): (r: Option<Product>)
    ensures r.Some? <==> id in db.products
    ensures r.Some? ==> r.value == db.products[id]
  {
    if id in db.products then Some(db.products[id]) else None
  }

  /** `get` agrees with the unfiltered listing: every listed product
      resolves, and a page larger than the id space lists exactly the
      products that resolve. */
  lemma GetAgreesWithList(db: Db, id: Id, limit: Option<int>)
    ensures id in Ids(List(db, None, None, limit)) ==> Get(db, id).Some?
    ensures Get(db, id).Some? <==> id in Ids(List(db, None, None, Some(db.clock + 1)))
  {
    var page := List(db, None, None, Some(db.clock + 1));
    IncreasingBelow(Ids(page), db.clock);
  }

  /** The admin gate the three catalogue mutations share. */
  function RequireAdmin(db: Db, caller: Option<Id>): (r: Result<()>)
    ensures r.Ok? ==> caller.Some? && HasRole(db, caller.value, Admin)
    ensures RolesUnique(db) ==> (r.Ok? <==> caller.Some? && HasRole(db, caller.value, Admin))
    ensures r.Err? && RolesUnique(db) ==> r.error == NotAdmin
  {
    var admin :- Roles.IsUserAdmin(db, caller);
    if admin then Ok(()) else Err(NotAdmin)
  }

  /** The product record `create` stores: the supplied fields, with the
      stock flag derived from the quantity. */
  function Stored(l: Listing): Product {
    Product(l.name, l.description, l.price, l.imageId, l.category, l.materials,
            l.dimensions, l.weight, l.quantity > 0, l.quantity, l.featured, l.artistNotes)
  }

  /** The `create` mutation: admins only; stores the listing under a fresh id. */
  function Create(db: Db, caller: Option<Id>, l: Listing): (r: Result<Step<Id>>)
    ensures RolesUnique(db) ==> (r.Ok? <==> caller.Some? && HasRole(db, caller.value, Admin))
    ensures r.Ok? ==> caller.Some? && HasRole(db, caller.value, Admin)
    ensures r.Ok? ==>
              && r.value.out in r.value.db.products
              && var p := r.value.db.products[r.value.out];
              && r.value.out !in db.products
              && r.value.db.products == db.products[r.value.out := p]
              && p.inStock == (l.quantity > 0) && StockFlagAgrees(p)
              && p.name == l.name && p.price == l.price && p.quantity == l.quantity
              && p.category == l.category && p.featured == l.featured
              && p.description == l.description && p.imageId == l.imageId
              && p.materials == l.materials && p.dimensions == l.dimensions
              && p.weight == l.weight && p.artistNotes == l.artistNotes
    ensures r.Ok? ==> r.value.db.(products := db.products, clock := db.clock) == db
  {
    var _ :- RequireAdmin(db, caller);
    var id := db.clock;
    Ok(Step(db.(products := db.products[id := Stored(l)], clock := db.clock + 1), id))
  }

  /** The product `update` leaves behind. The platform's patch overwrites
      every field supplied and keeps an optional field that was left out;
      the stock flag is the caller's, whatever the quantity. */
  function Patched(prior: Product, l: Listing, inStock: bool): Product {
    Product(
      l.name, l.description, l.price,
      if l.imageId.Some? then l.imageId else prior.imageId,
      l.category, l.materials,
      if l.dimensions.Some? then l.dimensions else prior.dimensions,
      if l.weight.Some? then l.weight else prior.weight,
      inStock, l.quantity,
      if l.featured.Some? then l.featured else prior.featured,
      if l.artistNotes.Some? then l.artistNotes else prior.artistNotes)
  }

  /** The `update` mutation: admins only; patches an existing product. */
  function Update(db: Db, caller: Option<Id>, id: Id, l: Listing, inStock: bool): (r: Result<Step<()>>)
    ensures RolesUnique(db) ==>
              (r.Ok? <==> caller.Some? && HasRole(db, caller.value, Admin) && id in db.products)
    ensures r.Ok? ==> caller.Some? && HasRole(db, caller.value, Admin) && id in db.products
    ensures r.Ok? ==>
              && id in r.value.db.products
              && var p := r.value.db.products[id];
              && r.value.db.products == db.products[id := p]
              && p.inStock == inStock && p.quantity == l.quantity
              && p.name == l.name && p.price == l.price && p.category == l.category
              && p.description == l.description && p.materials == l.materials
    // Each optional field is overwritten when supplied and kept when left out.
    ensures r.Ok? ==>
              && id in r.value.db.products
              && var p, prior := r.value.db.products[id], db.products[id];
              && (l.imageId.Some? ==> p.imageId == l.imageId)
              && (l.imageId.None? ==> p.imageId == prior.imageId)
              && (l.dimensions.Some? ==> p.dimensions == l.dimensions)
              && (l.dimensions.None? ==> p.dimensions == prior.dimensions)
              && (l.weight.Some? ==> p.weight == l.weight)
              && (l.weight.None? ==> p.weight == prior.weight)
              && (l.featured.Some? ==> p.featured == l.featured)
              && (l.featured.None? ==> p.featured == prior.featured)
              && (l.artistNotes.Some? ==> p.artistNotes == l.artistNotes)
              && (l.artistNotes.None? ==> p.artistNotes == prior.artistNotes)
    // Orders keep their captured prices and names: only the product table changes.
    ensures r.Ok? ==> r.value.db.(products := db.products) == db
  {
    var _ :- RequireAdmin(db, caller);
    if id !in db.products then Err(NoSuchDocument)
    else Ok(Step(db.(products := db.products[id := Patched(db.products[id], l, inStock)]), ()))
  }

  /** The `deleteProduct` mutation: admins only; cart entries and orders
      that name the product are left as they are. */
  function DeleteProduct(db: Db, caller: Option<Id>, id: Id): (r: Result<Step<()>>)
    ensures RolesUnique(db) ==>
              (r.Ok? <==> caller.Some? && HasRole(db, caller.value, Admin) && id in db.products)
    ensures r.Ok? ==> caller.Some? && HasRole(db, caller.value, Admin)
    ensures r.Ok? ==> id in db.products && r.value.db.products.Keys == db.products.Keys - {id}
    ensures r.Ok? ==> forall k :: k in r.value.db.products ==> r.value.db.products[k] == db.products[k]
    ensures r.Ok? ==> r.value.db.(products := db.products) == db
  {
    var _ :- RequireAdmin(db, caller);
    if id !in db.products then Err(NoSuchDocument)
    else Ok(Step(db.(products := db.products - {id}), ()))
  }

  const SampleCategory := Category("Pottery", "Handcrafted ceramic pieces", None)

  const SampleProduct := Product(
    "Rustic Clay Vase", "Beautiful handcrafted vase with earthy tones.", 85, None, "Pottery",
    ["Clay", "Natural Glaze"], None, None, true, 5, Some(true), None)

  /** The `initSampleData` mutation, which anyone may call: with any product
      present it writes nothing; otherwise it adds one category and one
      product. */
  function InitSampleData(db: Db): (r: Step<string>)
    ensures db.products != map[] ==> r.db == db && r.out == "Data exists"
    ensures db.products == map[] ==>
              && r.out == "Sample data created"
              && |r.db.products| == 1 && |r.db.categories| == |db.categories| + 1
              && r.db.users == db.users && r.db.userRoles == db.userRoles
              && r.db.cart == db.cart && r.db.orders == db.orders
    ensures db.products == map[] ==>
              forall k :: k in r.db.products ==>
                && r.db.products[k].quantity == 5 && r.db.products[k].inStock
                && StockFlagAgrees(r.db.products[k]) && r.db.products[k].category == "Pottery"
    ensures db.products == map[] ==>
              exists k: Id :: k !in db.categories && r.db.categories == db.categories[k := SampleCategory]
    // The one product seeded is the sample vase, featured.
    ensures db.products == map[] ==>
              exists k: Id :: r.db.products == map[k := SampleProduct]
    ensures db.products == map[] ==>
              forall k :: k in r.db.products ==>
                && r.db.products[k].name == "Rustic Clay Vase" && r.db.products[k].price == 85
                && r.db.products[k].materials == ["Clay", "Natural Glaze"]
                && r.db.products[k].featured == Some(true)
  {
    if db.products != map[] then Step(db, "Data exists")
    else
      var c := db.clock;
      var p := db.clock + 1;
      assert c !in db.categories;
      Step(db.(categories := db.categories[c := SampleCategory],
               products := db.products[p := SampleProduct],
               clock := db.clock + 2),
           "Sample data created")
  }
}

=== FILE: roles.dfy ===
/**
 The role table: the `by_user` lookup every privileged operation runs, the
 admin test built on it, and the look-up-then-patch-or-insert upsert that
 both role-setting mutations perform.
 */
module Roles {
  import opened Store
  import opened Schema

  /** The `by_user` index lookup of `user`'s role record, with `.unique()`
      semantics: absent, the one record, or a platform error. */
  function RoleRecord(db: Db, user: Id): (r: Result<Option<Id>>)
    ensures r == Ok(None) <==> forall k :: k in db.userRoles ==> db.userRoles[k].userId != user
    ensures r.Ok? && r.value.Some? ==>
              && r.value.value in db.userRoles && db.userRoles[r.value.value].userId == user
              && forall k :: k in db.userRoles && db.userRoles[k].userId == user ==> k == r.value.value
    ensures r.Err? <==> exists a, b :: && a in db.userRoles && b in db.userRoles && a != b
                                       && db.userRoles[a].userId == user && db.userRoles[b].userId == user
    ensures r.Err? ==> r.error == NotUnique
  {
    Unique(db.userRoles, (rec: UserRole) => rec.userId == user, db.clock)
  }

  /** Whether the caller is an administrator: never for an anonymous
      caller, and otherwise exactly when the caller's role record says so. */
  function IsUserAdmin(db: Db, caller: Option<Id>): (r: Result<bool>)
    ensures caller.None? ==> r == Ok(false)
    ensures r == Ok(true) ==> caller.Some? && HasRole(db, caller.value, Admin)
    ensures caller.Some? && RolesUnique(db) ==> r == Ok(HasRole(db, caller.value, Admin))
    ensures r.Err? ==> r.error == NotUnique
  {
    match caller
    case None => Ok(false)
    case Some(user) =>
      var found :- RoleRecord(db, user);
      Ok(found.Some? && db.userRoles[found.value].role == Admin)
  }

  /** Gives `user` the role `role`: patches the user's role record when one
      exists and inserts a new one otherwise. The output is the new record's
      id, or nothing when an existing record was patched. */
  function Upsert(db: Db, user: Id, role: Role): (r: Result<Step<Option<Id>>>)
    ensures r.Err? <==> exists a, b :: && a in db.userRoles && b in db.userRoles && a != b
                                       && db.userRoles[a].userId == user && db.userRoles[b].userId == user
    ensures RolesUnique(db) ==> r.Ok? && RolesUnique(r.value.db)
    ensures r.Ok? ==> HasRole(r.value.db, user, role)
    ensures r.Ok? ==> forall k :: k in r.value.db.userRoles && r.value.db.userRoles[k].userId == user
                                  ==> r.value.db.userRoles[k].role == role
    // Only the target's role changes; no other table does.
    ensures r.Ok? ==> r.value.db.(userRoles := db.userRoles, clock := db.clock) == db
    ensures r.Ok? ==> forall k :: k in db.userRoles && db.userRoles[k].userId != user
                                  ==> k in r.value.db.userRoles && r.value.db.userRoles[k] == db.userRoles[k]
    ensures r.Ok? ==> forall k :: k in r.value.db.userRoles && r.value.db.userRoles[k].userId != user
                                  ==> k in db.userRoles
    // An existing record is patched in place; otherwise exactly one record is added.
    ensures r.Ok? ==> (r.value.out.None? <==> exists k :: k in db.userRoles && db.userRoles[k].userId == user)
    ensures r.Ok? && r.value.out.None? ==> r.value.db.userRoles.Keys == db.userRoles.Keys
    ensures r.Ok? && r.value.out.Some? ==>
              && r.value.out.value !in db.userRoles
              && r.value.db.userRoles.Keys == db.userRoles.Keys + {r.value.out.value}
  {
    var found :- RoleRecord(db, user);
    match found
    case Some(k) =>
      PatchRole(db.userRoles, k, user, role);
      assert db.userRoles[k := UserRole(user, role)][k] == UserRole(user, role);
      Ok(Step(db.(userRoles := db.userRoles[k := UserRole(user, role)]), None))
    case None =>
      var id := db.clock;
      assert id !in db.userRoles;
      InsertRole(db.userRoles, id, user, role);
      assert db.userRoles[id := UserRole(user, role)][id] == UserRole(user, role);
      Ok(Step(db.(userRoles := db.userRoles[id := UserRole(user, role)], clock := db.clock + 1), Some(id)))
  }

  /** Rewriting the user's only record to `role` touches no other record
      and keeps one record per user. */
  lemma PatchRole(roles: map<Id, UserRole>, k: Id, user: Id, role: Role)
    requires k in roles && roles[k].userId == user
    requires forall j :: j in roles && roles[j].userId == user ==> j == k
    ensures var after := roles[k := UserRole(user, role)];
            && after.Keys == roles.Keys
            && (forall j :: j in after && after[j].userId == user ==> after[j].role == role)
            && (forall j :: j in roles && roles[j].userId != user ==> after[j] == roles[j])
            && (UniqueUsers(roles) ==> UniqueUsers(after))
  {
  }

  /** A first record for a user who had none keeps one record per user. */
  lemma InsertRole(roles: map<Id, UserRole>, id: Id, user: Id, role: Role)
    requires id !in roles
    requires forall j :: j in roles ==> roles[j].userId != user
    ensures var after := roles[id := UserRole(user, role)];
            && (forall j :: j in after && after[j].userId == user ==> j == id)
            && (forall j :: j in roles ==> after[j] == roles[j])
            && (UniqueUsers(roles) ==> UniqueUsers(after))
  {
  }
}

=== FILE: schema.dfy ===
/**
 The record shapes of the storefront's tables and the database state they
 make up. Prices and quantities are whole numbers (a price is a count of the
 smallest currency unit), so totals are exact sums.
 */
module Schema {
  import opened Store

  /** A user's privilege level; the role field admits exactly these two. */
  datatype Role = Admin | Customer

  datatype OrderStatus = Pending | Processing | Shipped | Delivered | Cancelled

  datatype PaymentStatus = PaymentPending | Paid | Failed

  /** A user document of the authentication tables; the backend only reads it back. */
  datatype User = User(name: Option<string>, email: Option<string>)

  /** A role record, looked up through its `by_user` index. */
  datatype UserRole = UserRole(userId: Id, role: Role)

  datatype Product = Product(
    name: string,
    description: string,
    price: int,
    imageId: Option<Id>,
    category: string,
    materials: seq<string>,
    dimensions: Option<string>,
    weight: Option<string>,
    inStock: bool,
    quantity: int,
    featured: Option<bool>,
    artistNotes: Option<string>)

  datatype Category = Category(name: string, description: string, imageId: Option<Id>)

  /** A pending-purchase record, indexed by user and by (user, product). */
  datatype CartEntry = CartEntry(userId: Id, productId: Id, quantity: int)

  /** One line of a placed order, with the price and name the product had
      when the order was placed. */
  datatype OrderItem = OrderItem(productId: Id, quantity: int, price: int, productName: string)

  datatype Address = Address(
    name: string, street: string, city: string, state: string, zipCode: string, country: string)

  datatype Order = Order(
    userId: Id,
    items: seq<OrderItem>,
    totalAmount: int,
    status: OrderStatus,
    shippingAddress: Address,
    paymentStatus: PaymentStatus)

  /** The tables of the database and the store's id counter. */
  datatype Tables = Tables(
    users: map<Id, User>,
    userRoles: map<Id, UserRole>,
    products: map<Id, Product>,
    categories: map<Id, Category>,
    cart: map<Id, CartEntry>,
    orders: map<Id, Order>,
    clock: nat)

  predicate Below<V>(table: map<Id, V>, bound: nat) {
    forall k :: k in table ==> k < bound
  }

  /** The store's own guarantee: every id in use was handed out by the
      counter, so the counter's next value is fresh in every table. */
  predicate Valid(t: Tables) {
    && Below(t.users, t.clock)
    && Below(t.userRoles, t.clock)
    && Below(t.products, t.clock)
    && Below(t.categories, t.clock)
    && Below(t.cart, t.clock)
    && Below(t.orders, t.clock)
  }

  type Db = t: Tables | Valid(t)
    witness Tables(map[], map[], map[], map[], map[], map[], 0)

  /** What a mutation returns when it does not throw: the new state and its output. */
  datatype Step<+T> = Step(db: Db, out: T)

  /** The state a mutation leaves behind: its new state when it returns, the
      untouched original when it throws, because a throwing mutation is
      rolled back as a whole. */
  function Commit<T>(db: Db, r: Result<Step<T>>): Db {
    if r.Ok? then r.value.db else db
  }

  /** At most one role record per user: the application keeps this by
      looking a record up before inserting one. */
  predicate RolesUnique(db: Db) {
    UniqueUsers(db.userRoles)
  }

  /** No two role records name the same user. */
  predicate UniqueUsers(roles: map<Id, UserRole>) {
    forall a, b :: a in roles && b in roles && roles[a].userId == roles[b].userId ==> a == b
  }

  /** At most one cart entry per (user, product) pair, kept the same way. */
  predicate CartUnique(db: Db) {
    UniquePairs(db.cart)
  }

  /** No two entries of `cart` share a (user, product) pair. */
  predicate UniquePairs(cart: map<Id, CartEntry>) {
    forall a, b ::
      a in cart && b in cart
      && cart[a].userId == cart[b].userId && cart[a].productId == cart[b].productId
      ==> a == b
  }

  /** Whether `user` holds a role record saying `role`. */
  predicate HasRole(db: Db, user: Id, role: Role) {
    exists k :: k in db.userRoles && db.userRoles[k] == UserRole(user, role)
  }

  /** The amount an order's lines add up to: each captured price times its quantity. */
  function LinesTotal(lines: seq<OrderItem>): int {
    if lines == [] then 0
    else
      var last := lines[|lines| - 1];
      LinesTotal(lines[..|lines| - 1]) + last.price * last.quantity
  }

  /** Every order's total equals the sum over its captured lines. */
  predicate TotalsConsistent(db: Db) {
    forall k :: k in db.orders ==> db.orders[k].totalAmount == LinesTotal(db.orders[k].items)
  }

  /** The stock flag agrees with the count: `inStock` exactly when some unit is left. */
  predicate StockFlagAgrees(p: Product) {
    p.inStock == (p.quantity > 0)
  }
}

=== FILE: store.dfy ===
/**
 The hosted document store the storefront backend runs on, reduced to what
 its queries and mutations rely on: opaque document ids, index scans in
 creation order, `.take(n)` pages and `.unique()` lookups, plus the
 failure-compatible result type every query and mutation returns.
 */
module Store {

  /** A document id. The store hands ids out from one counter that never
      goes back, so a larger id always names a later document. */
  type Id = nat

  datatype Option<+T> = None | Some(value: T)

  /** Why a query or mutation throws. A mutation that throws is rolled back
      as a whole by the platform. */
  datatype Error =
    | NotLoggedIn                        // an operation that needs an identity got none
    | NotAdmin                           // the caller holds no admin role record
    | Unavailable(productName: string)   // an order line cannot be served ("unknown" when the product is gone or unnamed)
    | ProductNotAvailable                // cart add of a missing or out-of-stock product
    | CartItemNotFound                   // cart entry missing or owned by someone else
    | NoSuchDocument                     // the platform refuses a patch or delete of a missing id
    | NotUnique                          // `.unique()` matched more than one document

  datatype Result<+T> = Ok(value: T) | Err(error: Error) {

    predicate IsFailure() {
      Err?
    }

    function PropagateFailure<U>(): Result<U>
      requires Err?
    {
      Err(error)
    }

    function Extract(): T
      requires Ok?
    {
      value
    }
  }

  /** A document as a query returns it: its id and its fields. */
  datatype Doc<+T> = Doc(id: Id, value: T)

  predicate Increasing(ids: seq<Id>) {
    forall i, j :: 0 <= i < j < |ids| ==> ids[i] < ids[j]
  }

  predicate Decreasing(ids: seq<Id>) {
    forall i, j :: 0 <= i < j < |ids| ==> ids[i] > ids[j]
  }

  /** An ordered id sequence is its first id followed by larger ones. */
  lemma SplitIds(ids: seq<Id>)
    requires |ids| > 0 && Increasing(ids)
    ensures Increasing(ids[1..])
    ensures forall j :: j in ids <==> j == ids[0] || j in ids[1..]
    ensures forall j :: j in ids[1..] ==> ids[0] < j
  {
    assert ids == [ids[0]] + ids[1..];
    forall j | j in ids[1..]
      ensures ids[0] < j
    {
      var m :| 0 <= m < |ids[1..]| && ids[1..][m] == j;
      assert ids[m + 1] == j;
    }
  }

  /** Strictly increasing ids all below `bound` number at most `bound`. */
  lemma {:induction false} IncreasingBelow(ids: seq<Id>, bound: nat)
    requires Increasing(ids)
    requires forall i :: 0 <= i < |ids| ==> ids[i] < bound
    ensures |ids| <= bound
    decreases |ids|
  {
    if ids != [] {
      var last := ids[|ids| - 1];
      IncreasingBelow(ids[..|ids| - 1], last);
    }
  }

  /** The ids below `bound` of the documents of `table` that `keep` selects,
      oldest first: what an index range scan followed by `.collect()` yields. */
  function Matching<V>(table: map<Id, V>, keep: V -> bool, bound: nat): (ids: seq<Id>)
    ensures Increasing(ids)
    ensures forall k :: k in ids <==> k < bound && k in table && keep(table[k])
    decreases bound
  {
    if bound == 0 then []
    else
      var k := bound - 1;
      var older := Matching(table, keep, k);
      assert forall i :: 0 <= i < |older| ==> older[i] in older;
      assert forall i :: 0 <= i < |older| ==> older[i] < k;
      older + (if k in table && keep(table[k]) then [k] else [])
  }

  /** The same scan newest first, as `.order("desc")` iterates it. */
  function Newest<V>(table: map<Id, V>, keep: V -> bool, bound: nat): (ids: seq<Id>)
    ensures Decreasing(ids)
    ensures forall k :: k in ids <==> k < bound && k in table && keep(table[k])
    decreases bound
  {
    if bound == 0 then []
    else
      var k := bound - 1;
      var older := Newest(table, keep, k);
      assert forall i :: 0 <= i < |older| ==> older[i] in older;
      assert forall i :: 0 <= i < |older| ==> older[i] < k;
      (if k in table && keep(table[k]) then [k] else []) + older
  }

  /** `.unique()` over an index scan: no document, the one document, or a
      platform error when several documents match. */
  function Unique<V>(table: map<Id, V>, keep: V -> bool, bound: nat): (r: Result<Option<Id>>)
    ensures r == Ok(None) <==> forall k :: k in table && k < bound ==> !keep(table[k])
    ensures r.Ok? && r.value.Some? ==>
              && r.value.value in table && r.value.value < bound && keep(table[r.value.value])
              && forall k :: k in table && k < bound && keep(table[k]) ==> k == r.value.value
    ensures r.Err? <==> exists a, b :: && a in table && b in table && a < bound && b < bound
                                       && a != b && keep(table[a]) && keep(table[b])
    ensures r.Err? ==> r.error == NotUnique
  {
    var ids := Matching(table, keep, bound);
    if |ids| == 0 then Ok(None)
    else if |ids| == 1 then
      assert ids[0] in ids;
      Ok(Some(ids[0]))
    else
      assert ids[0] in ids && ids[1] in ids;
      Err(NotUnique)
  }

  /** The page size `.take(n)` uses for a requested `n`: a negative request
      yields an empty page. */
  function PageLength(available: nat, n: int): (len: nat)
    ensures len <= available
    ensures n <= 0 ==> len == 0
    ensures 0 < n ==> len == if n < available then n else available
  {
    if n <= 0 then 0 else if n < available then n else available
  }

  /** The first page of at most `n` ids of a creation-order scan, as
      `.take(n)` returns it. */
  function Oldest<V>(table: map<Id, V>, keep: V -> bool, bound: nat, n: int): (ids: seq<Id>)
    ensures Increasing(ids)
    ensures |ids| <= (if n <= 0 then 0 else n)
    ensures forall i :: 0 <= i < |ids| ==> ids[i] < bound && ids[i] in table && keep(table[ids[i]])
    ensures |ids| < n ==> forall k :: k < bound && k in table && keep(table[k]) ==> k in ids
    ensures forall i, k :: 0 <= i < |ids| && k < ids[i] && k in table && keep(table[k]) ==> k in ids[..i]
  {
    var all := Matching(table, keep, bound);
    var len := PageLength(|all|, n);
    ScanPrefix(table, keep, bound, len);
    all[..len]
  }

  /** A prefix of a creation-order scan is ordered, holds only matches, and
      holds every match older than any of its members. */
  lemma ScanPrefix<V>(table: map<Id, V>, keep: V -> bool, bound: nat, len: nat)
    requires len <= |Matching(table, keep, bound)|
    ensures var ids: seq<Id> := Matching(table, keep, bound)[..len];
            && Increasing(ids)
            && (forall i :: 0 <= i < |ids| ==> ids[i] < bound && ids[i] in table && keep(table[ids[i]]))
            && forall i, k :: 0 <= i < |ids| && k < ids[i] && k in table && keep(table[k]) ==> k in ids[..i]
  {
    var all := Matching(table, keep, bound);
    var ids: seq<Id> := all[..len];
    forall i | 0 <= i < |ids|
      ensures ids[i] < bound && ids[i] in table && keep(table[ids[i]])
    {
      assert ids[i] == all[i];
      assert all[i] in all;
    }
    forall i, j | 0 <= i < j < |ids|
      ensures ids[i] < ids[j]
    {
      assert ids[i] == all[i] && ids[j] == all[j];
    }
    forall i, k | 0 <= i < |ids| && k < ids[i] && k in table && keep(table[k])
      ensures k in ids[..i]
    {
      OlderMatchComesFirst(all, table, keep, bound, i, k);
      var j :| 0 <= j < i && all[j] == k;
      assert ids[..i][j] == k;
    }
  }

  /** A match older than the scan's `i`-th id sits before it in the scan. */
  lemma OlderMatchComesFirst<V>(all: seq<Id>, table: map<Id, V>, keep: V -> bool, bound: nat, i: nat, k: Id)
    requires all == Matching(table, keep, bound)
    requires i < |all| && k < all[i] && k in table && keep(table[k])
    ensures exists j :: 0 <= j < i && all[j] == k
  {
    assert all[i] in all;
    assert k in all;
    var j :| 0 <= j < |all| && all[j] == k;
    assert j < i;
  }

  /** The ids of a query's documents, in order. */
  function Ids<V>(docs: seq<Doc<V>>): (ids: seq<Id>)
    ensures |ids| == |docs|
    ensures forall i :: 0 <= i < |docs| ==> ids[i] == docs[i].id
  {
    seq(|docs|, i requires 0 <= i < |docs| => docs[i].id)
  }

  /** The documents of `table` named by `ids`, in the same order. */
  function Docs<V>(table: map<Id, V>, ids: seq<Id>): (docs: seq<Doc<V>>)
    requires forall i :: 0 <= i < |ids| ==> ids[i] in table
    ensures |docs| == |ids|
    ensures forall i :: 0 <= i < |ids| ==> docs[i] == Doc(ids[i], table[ids[i]])
    ensures Ids(docs) == ids
  {
    seq(|ids|, i requires 0 <= i < |ids| => Doc(ids[i], table[ids[i]]))
  }
}
